=== FILE: README.md ===
# H2O chain reaction, modelled in Dafny

The model covers the hydrogen/oxygen particle simulation behind the landing
page's animated canvas (`src/components/H2OChainReaction.jsx`). Atoms of
hydrogen (H) and oxygen (O) drift around a canvas. Two reacting particles
within merge distance fuse into a molecule: H + H gives H2, and H2 + O gives
H2O. Each fusion sprays eight water droplets and reports the product to the
host page. The population is seeded when the component mounts and topped up
at random. Per-kind counts are reported every running frame, and a click
pauses or resumes the particle under the cursor.

The model is purely functional. Every `Math.random()` call becomes an
explicit input. Coordinates are exact reals. One animation frame is one call
that returns the next state.

Modules, in dependency order:

- `Kinds` (`kinds.dfy`): particle kinds, radii, atom content and the reaction
  table.
- `Particles` (`particle.dfy`): the particle record, one kinematic step
  (`update`), and the merge and click distance tests.
- `Census` (`census.dfy`): counts, atom totals, the survivors of a pass, and
  the statistics record.
- `Droplets` (`droplet.dfy`): the droplet record, its step, and the
  expired-droplet filter.
- `Merging` (`merging.dfy`): the greedy merge pass. It has a functional
  reference, `Scan` and `MergePairs`, and an imperative version, `MergePass`,
  shaped like the component's nested loops. The two are proved to compute
  the same merges, and the guarantee the scan keeps is proved to pin those
  merges down uniquely.
- `Population` (`population.dfy`): initial seeding and the random top-up.
- `Simulation` (`simulation.dfy`): the component's state, one animation
  frame with the global pause gate, the click handler, and the mount effect
  with its re-runs.

The main results:

- The merge test is symmetric. It holds exactly when the centre distance is
  below the two radii plus five.
- A paused particle, a paused frame and a frame without a canvas change
  nothing.
- A click flips only the first particle it hits, and a second click at the
  same point undoes it.
- After an unpaused step, a particle's velocity stays within ±1.5, its scale
  grows but never past 1, and its centre lies within the walls whenever the
  canvas is wide enough for it.
- Within a merge pass:
  - each particle is consumed at most once;
  - each merge takes the first available reacting partner;
  - no two particles left over could still react;
  - the molecules are never rescanned;
  - these facts, with the outer scan's own greediness, hold for the pass's
    merges and for no other list of merges.
- After a merge pass:
  - the list is the survivors in order followed by the molecules, one particle
    shorter per merge;
  - eight droplets were sprayed per merge, and each product was reported once;
  - hydrogen and oxygen atoms are conserved exactly.
- Seeding creates `ceil(min(0.7 m, 40))` H or O atoms for a budget `m`, and
  nothing on a zero-sized canvas.
- The top-up adds only H and O atoms, and never beyond the budget.
- Whenever all particles have one of the four known kinds, the four counts
  add up to the total. Every frame preserves that condition.
- Every droplet lives for exactly one running frame.
- A flip of the global pause flag by the host re-runs the mount effect and
  re-seeds the scene (see Findings).

Two details of the component decide the droplet and seeding results:

- The droplet constructor sets the life counter to 1
  (src/components/H2OChainReaction.jsx:254). Each step lowers it by one and
  keeps the droplet only while it stays positive (264-265), which the frame's
  filter applies (406). The `maxLife` of
  40 set next to it (255) is read only when the droplet is drawn (269-270).
  So a droplet is removed on the first running frame after it is sprayed.
- The initial population is `Math.min(maxParticles * 0.7, 40)` (292), so at
  most 40 atoms are seeded.

## Model

| member | source | states |
|---|---|---|
| `Kinds.Radius` | src/components/H2OChainReaction.jsx:39-52 | every kind's radius lies between 10 (H) and 24 (H2O) pixels |
| `Kinds.React` | src/components/H2OChainReaction.jsx:322-329 | a reaction forms only H2 or H2O, and the product holds exactly the hydrogen and the oxygen atoms of the two reactants |
| `Kinds.ReactSymmetric` | src/components/H2OChainReaction.jsx:322-329 | the outcome of the reaction table does not depend on the order of the two kinds |
| `Kinds.ReactIffMolecule` | src/components/H2OChainReaction.jsx:322-329 | two kinds react exactly when they are known kinds whose atoms make one H2 or one H2O, so H+O, O+O, H+H2, H2+H2 and anything with H2O stay inert |
| `Particles.Clamp` | src/components/H2OChainReaction.jsx:62-63 | `max(lo, min(hi, v))` lies in the interval when it is non-empty; a value inside is kept, one below goes to `lo` and one above to `hi`; an empty interval gives `lo` |
| `Particles.NewParticle` | src/components/H2OChainReaction.jsx:27-37 | a new particle sits where it was put with scale zero, is not paused, and has each velocity component in [-1, 1) |
| `Particles.GrowScale` | src/components/H2OChainReaction.jsx:56 | one tick of growth never shrinks the scale, never takes it past 1, and strictly grows it while it is below 1 |
| `Particles.GrownAfter` | src/components/H2OChainReaction.jsx:56 | after n running ticks from birth the scale is `min(1, 0.05 n)`, so a particle is full size after twenty ticks |
| `Particles.Bounce` | src/components/H2OChainReaction.jsx:67-75 | away from the walls nothing changes; a centre touching or past a wall reverses the velocity and damps it to −0.85 v, and on a canvas at least one diameter wide is put exactly on that wall (r or extent − r), so the centre always lies in [r, extent − r] (at r on a narrower canvas); the speed limit is kept |
| `Particles.Update` | src/components/H2OChainReaction.jsx:54-76 | a paused particle is returned unchanged; otherwise the kind is kept, the glow advances by 0.05, the scale grows as `GrowScale` says, and on each axis the velocity is the old one plus jitter, clamped to ±1.5: the particle moves by it when that keeps it clear of both walls, and otherwise the velocity is reversed and damped by 0.85 and the centre is put on the wall it reached (at the radius on a canvas narrower than one diameter) |
| `Particles.CanMergeWithinReach` | src/components/H2OChainReaction.jsx:239-245 | the squared-distance merge test holds exactly when the true centre distance is strictly below radius(a) + radius(b) + 5 |
| `Particles.CanMergeSymmetric` | src/components/H2OChainReaction.jsx:239-245 | the merge test does not depend on the order of the two particles |
| `Particles.HitsWithinRadius` | src/components/H2OChainReaction.jsx:430-432 | the squared-distance hit test holds exactly when the click is strictly closer to the centre than the radius |
| `Census.Survivors` | src/components/H2OChainReaction.jsx:345 | filtering out the removed indices never lengthens the list and keeps only particles of the list |
| `Census.SurvivorsRemove` | src/components/H2OChainReaction.jsx:345 | removing one more unremoved index shortens the survivors by one and removes exactly that particle's atoms |
| `Census.SurvivorsNone` | src/components/H2OChainReaction.jsx:345 | filtering with nothing removed keeps the list |
| `Census.CountsPartition` | src/components/H2OChainReaction.jsx:365-366 | the counts of the five kinds add up to the length of the list |
| `Census.NoOtherIffFourKinds` | src/components/H2OChainReaction.jsx:366 | no particle has an unknown kind exactly when every particle is H, O, H2 or H2O |
| `Census.Tally` | src/components/H2OChainReaction.jsx:364-367 | the statistics hold the per-kind counts and the length, and the four counts add up to the total exactly when every particle has a known kind |
| `Droplets.NewDroplet` | src/components/H2OChainReaction.jsx:249-257 | a new droplet starts at the given point with life 1, a radius in [2, 5) and each velocity component in [-3, 3) |
| `Droplets.Step` | src/components/H2OChainReaction.jsx:259-266 | a step lowers the life by exactly one and reports the droplet alive exactly when life was above one; it moves by the old velocity and damps it by 0.96 |
| `Droplets.Advance` | src/components/H2OChainReaction.jsx:406 | the filter never lengthens the list, every droplet kept has life left, and none is dropped while all have more than one tick left |
| `Droplets.AdvanceFresh` | src/components/H2OChainReaction.jsx:254-265 | droplets that still have their birth life are all gone after one running frame |
| `Merging.Endpoints` | src/components/H2OChainReaction.jsx:331-332 | both indices of every merge are in the consumed set |
| `Merging.Combine` | src/components/H2OChainReaction.jsx:319-328 | a molecule has the product kind of the table, sits at the midpoint of the two reactants, has scale zero and is not paused |
| `Merging.Products` | src/components/H2OChainReaction.jsx:322-329 | one molecule per merge, each an H2 or H2O at scale zero, not paused |
| `Merging.ProductsAt` | src/components/H2OChainReaction.jsx:319-329 | molecule t is the one merge t forms from its two particles, with the constructor draws of molecule t |
| `Merging.Burst` | src/components/H2OChainReaction.jsx:335-337 | a merge sprays eight droplets; droplet i is a new droplet at the midpoint with spray draw i, so all sit at the midpoint with their birth life |
| `Merging.Splash` | src/components/H2OChainReaction.jsx:335-337 | a pass sprays eight droplets per merge |
| `Merging.SplashAt` | src/components/H2OChainReaction.jsx:319-337 | droplet q of merge t, at position 8t + q of the spray, is a new droplet at the midpoint of merge t's two particles |
| `Merging.SplashFresh` | src/components/H2OChainReaction.jsx:335-337 | every droplet a pass sprays has its birth life |
| `Merging.Partner` | src/components/H2OChainReaction.jsx:313-342 | the inner scan returns the first later index that is not consumed and reacts with the outer index, or the list length if there is none; indices within merge distance whose kinds do not react are passed over |
| `Merging.Scan` | src/components/H2OChainReaction.jsx:311-343 | the outer scan keeps the merges already made as a prefix of its result |
| `Merging.ScanStep` | src/components/H2OChainReaction.jsx:311-343 | one outer index of the scan keeps the pass guarantee, one index further |
| `Merging.ScanScanned` | src/components/H2OChainReaction.jsx:311-343 | scanning on from any state the scan can reach ends with merges that react, are disjoint and greedy, and leave no two reacting particles over |
| `Merging.MergePairsScanned` | src/components/H2OChainReaction.jsx:311-343 | the merges of a pass name increasing index pairs below the list length (so no molecule is rescanned) that react; no index is consumed twice; each takes the first available partner; when each was made no two available particles below its first index reacted; and no two unconsumed particles could still react |
| `Merging.SamePair` | src/components/H2OChainReaction.jsx:311-329 | two lists of merges with the scan guarantee that agree on their first k merges agree on merge k |
| `Merging.SameLength` | src/components/H2OChainReaction.jsx:311-343 | two lists of merges with the scan guarantee that agree up to the shorter length have the same length |
| `Merging.ScannedUnique` | src/components/H2OChainReaction.jsx:311-343 | at most one list of merges has the scan guarantee |
| `Merging.ScannedIffMergePairs` | src/components/H2OChainReaction.jsx:311-343 | a list of merges has the scan guarantee exactly when it is the list of merges the pass makes |
| `Merging.MergePairs` | src/components/H2OChainReaction.jsx:318-345 | the reference scan: each index in turn that is not yet consumed is paired with its first later available reacting partner; `ScannedIffMergePairs` characterises the result |
| `Merging.MergePairsReact` | src/components/H2OChainReaction.jsx:318-329 | every merge the pass makes joins two particles whose kinds react and that lie within merge distance |
| `Merging.Balance` | src/components/H2OChainReaction.jsx:319-345 | over disjoint reacting pairs the survivors are two fewer per merge, and survivors plus molecules hold exactly the hydrogen and oxygen atoms of the list |
| `Merging.MergeBalance` | src/components/H2OChainReaction.jsx:306-345 | the list a pass leaves is one particle shorter per merge and conserves hydrogen and oxygen atoms |
| `Merging.FindPartner` | src/components/H2OChainReaction.jsx:313-342 | the inner loop with its `break` returns exactly the first available reacting partner of `Partner` |
| `Merging.Record` | src/components/H2OChainReaction.jsx:319-340 | one merge consumes both indices, sets one molecule aside, sprays eight droplets, and reports the product when a callback exists, keeping the working state equal to what the merges so far produce |
| `Merging.Visit` | src/components/H2OChainReaction.jsx:311-343 | one round of the outer loop does what one step of the reference scan does |
| `Merging.MergePass` | src/components/H2OChainReaction.jsx:306-345 | the pass makes exactly the reference merges; it leaves the survivors in order followed by the molecules, one particle fewer per merge; it appends eight droplets per merge; it reports each product once when a callback exists and nothing otherwise; and it conserves hydrogen and oxygen atoms |
| `Population.PickKind` | src/components/H2OChainReaction.jsx:294-295 | the kind picked by a draw in [0, 1) is one of the pool |
| `Population.PickKindSlot` | src/components/H2OChainReaction.jsx:295 | slot q is picked exactly by the draws in [q/n, (q+1)/n), so the pick is uniform over the slots |
| `Population.SeedPoolKinds` | src/components/H2OChainReaction.jsx:294-295 | the seeding pool yields H for draws below 2/3 and O above |
| `Population.RefillPoolKinds` | src/components/H2OChainReaction.jsx:353-354 | the top-up pool yields H for draws below 3/4 and O above |
| `Population.ScaledWithin` | src/components/H2OChainReaction.jsx:299-300 | a draw in [0, 1) scales a non-negative span into that span |
| `Population.NewAtom` | src/components/H2OChainReaction.jsx:296-301 | a new atom has a kind from the pool, scale zero and is not paused, and lies at least 40 pixels inside every edge of a canvas at least 80 pixels wide and high |
| `Population.SeedCount` | src/components/H2OChainReaction.jsx:292-293 | the seeding loop runs once per natural below `min(0.7 m, 40)`, so the count is that bound rounded up, or zero when the bound is not positive |
| `Population.SeedCountBounds` | src/components/H2OChainReaction.jsx:292 | seeding makes at most 40 atoms and at most the budget, and none for a budget that is not positive |
| `Population.SeedCountExamples` | src/components/H2OChainReaction.jsx:292-293 | the default budget of sixty seeds forty atoms; a budget of ten seeds seven and a budget of one seeds one |
| `Population.Seed` | src/components/H2OChainReaction.jsx:288-304 | a zero-sized canvas leaves the list alone; otherwise the list becomes `SeedCount(m)` fresh H or O atoms, the `i`-th one the `NewAtom` of the seeding pool placed with draw `i` |
| `Population.Replenish` | src/components/H2OChainReaction.jsx:347-362 | the top-up only appends fresh H or O atoms, the `k`-th one the `NewAtom` of the top-up pool placed with draw `k` (`ToppedUp`); it never passes the larger of the old length and the budget; every added atom won its coin; and it stops below the budget only on a losing coin (`CoinsDecide`) |
| `Simulation.UpdateAll` | src/components/H2OChainReaction.jsx:405 | the list keeps its length and particle `i` becomes `Update` of particle `i` with jitter draw `i`: kinds are kept, paused particles are unchanged, scales grow, and horizontal speeds stay limited |
| `Simulation.Step` | src/components/H2OChainReaction.jsx:404-408 | a running frame leaves the particles of the `Merged` reference (survivors of the moved list, then its molecules) followed by top-up atoms placed by the frame's draws, as many as the frame's coins decide (each added atom won its coin, and a stop below the budget is a losing coin), the reference's droplets (the live old ones, then the spray) and its reported kinds; it keeps the canvas size, recounts the statistics, respects the budget, never loses an atom, reports nothing without a callback, and sprays eight droplets per reported product; from a healthy state (known kinds, unit scales, fresh droplets) it ends healthy and the four counts add up to the total |
| `Simulation.Animate` | src/components/H2OChainReaction.jsx:370-415 | a frame is rescheduled exactly when there is a canvas; without a canvas or under the global pause nothing changes; a running frame behaves as `Step` says: the `Merged` particles topped up by as many atoms as the coins decide, the `Merged` droplets and reports, the budget respected, no atom lost |
| `Simulation.Merged` | src/components/H2OChainReaction.jsx:375-408 | the reference for the first half of a running frame: the survivors of the moved list followed by its molecules, the live old droplets followed by the spray, and the product kinds when a callback exists |
| `Simulation.MoveAndMerge` | src/components/H2OChainReaction.jsx:404-407 | moving every particle, expiring droplets and the merge pass give exactly the `Merged` reference; they never lengthen the list, conserve hydrogen and oxygen atoms, report nothing without a callback, keep known kinds and unit scales, and turn fresh droplets into eight fresh droplets per reported product |
| `Simulation.TopUpAndCount` | src/components/H2OChainReaction.jsx:347-367 | the end of a running frame appends top-up atoms placed by the frame's draws (`ToppedUp`), as many as the coins decide (`CoinsDecide`), respects the budget, keeps the droplets and the canvas size, recounts the statistics, loses no atom, and keeps known kinds and unit scales |
| `Simulation.TopUpFourKinds` | src/components/H2OChainReaction.jsx:347-362 | appending fresh H and O atoms to a list of the four kinds keeps it of the four kinds |
| `Simulation.TopUpAtoms` | src/components/H2OChainReaction.jsx:347-362 | the top-up only appends, so it never lowers the hydrogen or oxygen atom totals |
| `Simulation.MergedKinds` | src/components/H2OChainReaction.jsx:319-345 | moving and merging a list of known kinds and unit scales keeps both |
| `Simulation.TopUpScales` | src/components/H2OChainReaction.jsx:347-362 | appending fresh atoms, which start at scale zero, keeps every scale in the unit interval |
| `Simulation.FirstHit` | src/components/H2OChainReaction.jsx:430-432 | the search returns the first particle whose disc strictly contains the point, or the list length if none does |
| `Simulation.FirstHitPlaced` | src/components/H2OChainReaction.jsx:430-432 | the hit search depends only on the positions and kinds of the particles |
| `Simulation.Click` | src/components/H2OChainReaction.jsx:426-443 | a click that hits nothing changes nothing and opens no tooltip; otherwise only the first particle hit has its pause flag flipped, and the tooltip shows its kind and new flag |
| `Simulation.ClickTwice` | src/components/H2OChainReaction.jsx:433-434 | clicking twice at the same point restores every pause flag |
| `Simulation.Remount` | src/components/H2OChainReaction.jsx:445-454 | the mount effect takes the container size (keeps the old size without a canvas), re-seeds `SeedCount(m)` fresh H and O atoms on a non-empty canvas, the `i`-th the seeding pool's `NewAtom` with draw `i`, and leaves the list alone on an empty one, and keeps droplets and statistics |
| `Simulation.Mount` | src/components/H2OChainReaction.jsx:445-449 | mounting takes the container size, seeds `SeedCount(m)` atoms on a non-empty canvas (none otherwise), starts with no droplets and zero statistics, and starts in the healthy state a frame preserves |
| `Simulation.TogglePause` | src/components/H2OChainReaction.jsx:415-454 | as written, a host flip of the pause flag also re-runs the mount effect: on a non-empty canvas the scene becomes a fresh seeding of `SeedCount(m)` atoms |
| `Simulation.PauseResume` | src/components/H2OChainReaction.jsx:415-454 | as written, pausing and resuming on a non-empty canvas gives back the particles only if they already were a fresh seeding of `SeedCount(m)` atoms |
| `Simulation.PauseResumeLosesMolecule` | src/components/H2OChainReaction.jsx:415-454 | one H2 on an 800 by 600 canvas with a budget of sixty is gone after a pause and a resume |
| `Simulation.PauseResumeIntended` | src/components/H2OChainReaction.jsx:402-408 | with the flip changing only the flag, any number of frames drawn while paused followed by a resume leave the simulation exactly as it was |
| `Particles.CanMerge` | src/components/H2OChainReaction.jsx:243-245 | the merge distance test, on squared distances; `CanMergeWithinReach` proves it the same as the distance test |
| `Particles.Hits` | src/components/H2OChainReaction.jsx:431 | the click hit test, on squared distances; `HitsWithinRadius` proves it the same as the distance test |
| `Census.Count` | src/components/H2OChainReaction.jsx:366 | the count of a kind never exceeds the length of the list |
| `Merging.Reactive` | src/components/H2OChainReaction.jsx:318-329 | two particles merge when they are within merge distance and the reaction table gives a product for their kinds |
| `Population.SeedBound` | src/components/H2OChainReaction.jsx:292 | the seeding bound is the smaller of 0.7 m and 40: at most each and equal to one of them |
| `Population.Place` | src/components/H2OChainReaction.jsx:299-300 | a draw in [0, 1) places a coordinate at least 40 pixels inside both ends of an extent of at least 80 |

## Left out

- Drawing is not modelled: atoms, molecules, droplets, labels and the background. These are gradients, trigonometry and colour strings with no checkable contract.
- The overlay markup and the host page are not modelled.
- The React plumbing is not modelled: refs, state hooks, the listener registration and cleanup of the effect, and `requestAnimationFrame`. A frame is one call. Whether it would be scheduled again is returned as a flag. A run of the mount effect is one call, `Remount`.
- Which re-renders re-create the callbacks is not modelled. `TogglePause` models the one the host page causes. A host that leaves `brandColors` at its default gets a new default object, and so a new frame callback and a re-run of the effect, on every render of the component, including the render each running frame's statistics update causes.
- A window resize on its own is not modelled as an operation. It runs only the resize handler (src/components/H2OChainReaction.jsx:417-424), which sets the size without re-seeding; the model takes the size as a parameter of `Remount`, and the next frame uses whatever size the state holds.
- Random ids are not modelled because no logic reads them.
- Randomness: the single `Math.random()` stream becomes separate indexed families of draws, one per use: jitter per particle, constructor draws per molecule, spray per droplet, and coin and placement per top-up round. Correlations between uses are therefore not modelled.
- Floating point is modelled as exact reals. `Math.hypot` is replaced by comparisons of squared distances, which are proved equivalent to comparing the exact distance.
- The tooltip's screen position and its two-second dismissal timer are not modelled. The tooltip holds the kind and the new pause flag only.
- The `onMoleculeForm` callback is modelled by the list of kinds it receives. What the host does with them is not modelled.
- The particle budget is an integer. A fractional `maxParticles` is not modelled.
- Kinds.Radius: its contract states only the range [10, 24]. The per-kind values are the table in its body, which the merge and click tests use directly.
- Merging.Scan: its own contract states only that the merges already made are kept as a prefix. What the scan computes is stated by `MergePairsScanned`, `ScannedIffMergePairs` and `MergeBalance` about `MergePairs`.
- Census.Survivors: its contract states length and membership only. That the order is kept rests on its definition, which appends the kept particles index by index; the exact removal is stated by `SurvivorsNone` and `SurvivorsRemove`.
- Droplets.Advance: its contract states length and life bounds only. The one-frame lifetime is stated by `AdvanceFresh`.
- Merging.Products: the molecules' contents are stated per index by `ProductsAt`, not by the function's own contract.
- Merging.Splash: the droplets' contents are stated per index by `SplashAt`, not by the function's own contract.

## Findings

| source | as written | input that shows it | evidently intended | confidence | as-written member | corrected member |
|---|---|---|---|---|---|---|
| src/components/H2OChainReaction.jsx:415-454 | the frame callback lists `isPaused` among its dependencies, and the mount effect lists the frame callback, so every change of `isPaused` re-runs the mount effect, which re-sizes the canvas and re-seeds the particle list | the landing page's Pause button (src/pages/landing/Home.jsx:11, 118) pressed twice on a sized canvas holding any molecule, grown atom or clicked-paused atom: the scene after resuming is a fresh seeding of 40 atoms (`Simulation.PauseResumeLosesMolecule` builds one such scene) | the global pause freezes the scene, and resuming continues it: the flag only gates the motion in the frame | not executed; read from the dependency lists | `Simulation.PauseResume` | `Simulation.PauseResumeIntended` |

=== FILE: census.dfy ===
/** Counting over a particle list: per-kind counts, atom totals, the list
    that survives a set of removed indices, and the per-kind statistics the
    component reports to its host. */
module Census {
  import opened Kinds
  import opened Particles

  /** Number of particles of kind `k`. */
  function Count(ps: seq<Particle>, k: Kind): (n: nat)
    ensures n <= |ps|
  {
    if |ps| == 0 then 0
    else Count(ps[..|ps| - 1], k) + (if ps[|ps| - 1].kind == k then 1 else 0)
  }

  /** Sum of a per-kind weight over the list. */
  function Weight(ps: seq<Particle>, w: Kind -> nat): nat
  {
    if |ps| == 0 then 0 else Weight(ps[..|ps| - 1], w) + w(ps[|ps| - 1].kind)
  }

  /** Hydrogen atoms in the list: one per H, two per H2 and per H2O. */
  function Hydrogen(ps: seq<Particle>): nat { Weight(ps, HydrogenAtoms) }

  /** Oxygen atoms in the list: one per O and per H2O. */
  function Oxygen(ps: seq<Particle>): nat { Weight(ps, OxygenAtoms) }

  lemma {:induction false} WeightConcat(a: seq<Particle>, b: seq<Particle>, w: Kind -> nat)
    ensures Weight(a + b, w) == Weight(a, w) + Weight(b, w)
  {
    if |b| > 0 {
      assert (a + b)[..|a + b| - 1] == a + b[..|b| - 1];
      WeightConcat(a, b[..|b| - 1], w);
    } else {
      assert a + b == a;
    }
  }

  /** Two lists with the same kinds at the same places. */
  predicate SameKinds(a: seq<Particle>, b: seq<Particle>)
  {
    |a| == |b| && forall i :: 0 <= i < |a| ==> a[i].kind == b[i].kind
  }

  /** Weights and counts depend on the kinds alone. */
  lemma {:induction false} SameKindsSameWeight(a: seq<Particle>, b: seq<Particle>, w: Kind -> nat)
    requires SameKinds(a, b)
    ensures Weight(a, w) == Weight(b, w)
  {
    if |a| > 0 {
      SameKindsSameWeight(a[..|a| - 1], b[..|b| - 1], w);
    }
  }

  /** The particles whose index is not in `removed`, in their original order:
      what the merge pass keeps of the list it scanned. */
  function Survivors(ps: seq<Particle>, removed: set<nat>): (s: seq<Particle>)
    ensures |s| <= |ps|
    ensures forall i :: 0 <= i < |s| ==> s[i] in ps
  {
    if |ps| == 0 then []
    else
      var n := |ps| - 1;
      Survivors(ps[..n], removed) + (if n in removed then [] else [ps[n]])
  }

  lemma {:induction false} SurvivorsNone(ps: seq<Particle>)
    ensures Survivors(ps, {}) == ps
  {
    if |ps| > 0 {
      SurvivorsNone(ps[..|ps| - 1]);
    }
  }

  /** Removing an index the list does not reach changes nothing. */
  lemma {:induction false} SurvivorsBeyond(ps: seq<Particle>, removed: set<nat>, k: nat)
    requires |ps| <= k
    ensures Survivors(ps, removed + {k}) == Survivors(ps, removed)
  {
    if |ps| > 0 {
      SurvivorsBeyond(ps[..|ps| - 1], removed, k);
    }
  }

  /** Removing one more index drops exactly that particle: one fewer element
      and that particle's weight less. */
  lemma {:induction false} SurvivorsRemove(ps: seq<Particle>, removed: set<nat>, k: nat, w: Kind -> nat)
    requires k < |ps| && k !in removed
    ensures |Survivors(ps, removed + {k})| + 1 == |Survivors(ps, removed)|
    ensures Weight(Survivors(ps, removed + {k}), w) + w(ps[k].kind) == Weight(Survivors(ps, removed), w)
  {
    var n := |ps| - 1;
    var init := ps[..n];
    if k == n {
      SurvivorsBeyond(init, removed, k);
      assert Survivors(ps, removed + {k}) == Survivors(init, removed);
      assert Survivors(ps, removed) == Survivors(init, removed) + [ps[n]];
      WeightConcat(Survivors(init, removed), [ps[n]], w);
      assert [ps[n]][..0] == [];
      assert Weight([ps[n]], w) == w(ps[n].kind);
    } else {
      SurvivorsRemove(init, removed, k, w);
      assert init[k] == ps[k];
      var tail := if n in removed then [] else [ps[n]];
      WeightConcat(Survivors(init, removed + {k}), tail, w);
      WeightConcat(Survivors(init, removed), tail, w);
    }
  }

  /** Every particle in the list has one of the four kinds. */
  predicate FourKinds(ps: seq<Particle>)
  {
    forall i :: 0 <= i < |ps| ==> ps[i].kind != Other
  }

  /** The five counts partition the list. */
  lemma {:induction false} CountsPartition(ps: seq<Particle>)
    ensures Count(ps, H) + Count(ps, O) + Count(ps, H2) + Count(ps, H2O) + Count(ps, Other) == |ps|
  {
    if |ps| > 0 {
      CountsPartition(ps[..|ps| - 1]);
    }
  }

  /** The counts shown in the overlay. */
  datatype Stats = Stats(h: nat, o: nat, h2: nat, h2o: nat, total: nat)

  const NoStats: Stats := Stats(0, 0, 0, 0, 0)

  /** The statistics agree with the list they describe. */
  predicate Describes(s: Stats, ps: seq<Particle>)
  {
    && s.h == Count(ps, H) && s.o == Count(ps, O)
    && s.h2 == Count(ps, H2) && s.h2o == Count(ps, H2O)
    && s.total == |ps|
  }

  /** One pass over the list counting each particle under its kind. A
      particle of any other kind is counted in the total only, so the four
      counts add up to the total exactly when every particle has a known
      kind. */
  method Tally(ps: seq<Particle>) returns (s: Stats)
    ensures Describes(s, ps)
    ensures s.h + s.o + s.h2 + s.h2o == s.total <==> FourKinds(ps)
  {
    s := Stats(0, 0, 0, 0, |ps|);
    var i := 0;
    while i < |ps|
      invariant 0 <= i <= |ps| && s.total == |ps|
      invariant s.h == Count(ps[..i], H) && s.o == Count(ps[..i], O)
      invariant s.h2 == Count(ps[..i], H2) && s.h2o == Count(ps[..i], H2O)
    {
      assert ps[..i + 1][..i] == ps[..i];
      match ps[i].kind {
        case H => s := s.(h := s.h + 1);
        case O => s := s.(o := s.o + 1);
        case H2 => s := s.(h2 := s.h2 + 1);
        case H2O => s := s.(h2o := s.h2o + 1);
        case Other =>
      }
      i := i + 1;
    }
    assert ps[..i] == ps;
    CountsPartition(ps);
    NoOtherIffFourKinds(ps);
  }

  lemma {:induction false} NoOtherIffFourKinds(ps: seq<Particle>)
    ensures Count(ps, Other) == 0 <==> FourKinds(ps)
  {
    if |ps| > 0 {
      var init := ps[..|ps| - 1];
      NoOtherIffFourKinds(init);
      if FourKinds(ps) {
        assert FourKinds(init) by {
          forall i | 0 <= i < |init| ensures init[i].kind != Other {
            assert init[i] == ps[i];
          }
        }
      }
    }
  }
}

=== FILE: droplet.dfy ===
/** The decorative water droplets sprayed where a molecule forms: their
    damped motion, their lifetime counter, and the filter that drops the
    expired ones each tick. */
module Droplets {

  /** Velocity damping per tick. */
  const Damping: real := 0.96
  /** The value the constructor gives the lifetime counter. (The nominal
      lifetime of forty is read only when the droplet is drawn.) */
  const BirthLife: int := 1
  /** Width of the random initial velocity: a uniform draw less one half, times six. */
  const SpraySpan: real := 6.0

  datatype Droplet = Droplet(x: real, y: real, vx: real, vy: real, life: int, r: real)

  /** The random draws of the droplet constructor: three uniform values in
      [0, 1) for the velocity and the radius. */
  datatype Spray = Spray(rvx: real, rvy: real, rr: real)

  /** A new droplet at the given point. */
  function NewDroplet(x: real, y: real, s: Spray): (d: Droplet)
    ensures d.x == x && d.y == y && d.life == BirthLife
    ensures 0.0 <= s.rr < 1.0 ==> 2.0 <= d.r < 5.0
    ensures 0.0 <= s.rvx < 1.0 ==> -3.0 <= d.vx < 3.0
    ensures 0.0 <= s.rvy < 1.0 ==> -3.0 <= d.vy < 3.0
  {
    Droplet(x, y, (s.rvx - 0.5) * SpraySpan, (s.rvy - 0.5) * SpraySpan, BirthLife, s.rr * 3.0 + 2.0)
  }

  /** A droplet after one tick, and whether it is still alive. */
  datatype Stepped = Stepped(next: Droplet, alive: bool)

  /** One tick: move by the current velocity, damp the velocity, count the
      lifetime down by one, and report whether any lifetime is left. */
  function Step(d: Droplet): (s: Stepped)
    ensures s.next.life == d.life - 1
    ensures s.alive <==> d.life > 1
    ensures s.next.x == d.x + d.vx && s.next.y == d.y + d.vy
    ensures s.next.vx == d.vx * Damping && s.next.vy == d.vy * Damping
    ensures s.next.r == d.r
  {
    var next := Droplet(d.x + d.vx, d.y + d.vy, d.vx * Damping, d.vy * Damping, d.life - 1, d.r);
    Stepped(next, next.life > 0)
  }

  /** Every droplet still has the lifetime it was born with. */
  predicate AllFresh(ds: seq<Droplet>)
  {
    forall i :: 0 <= i < |ds| ==> ds[i].life == BirthLife
  }

  /** Step every droplet and keep, in order, the ones still alive. */
  function Advance(ds: seq<Droplet>): (rs: seq<Droplet>)
    ensures |rs| <= |ds|
    ensures forall i :: 0 <= i < |rs| ==> rs[i].life >= 1
    ensures (forall i :: 0 <= i < |ds| ==> ds[i].life > 1) ==> |rs| == |ds|
  {
    if |ds| == 0 then []
    else
      var s := Step(ds[0]);
      (if s.alive then [s.next] else []) + Advance(ds[1..])
  }

  /** A droplet is born with lifetime one, so a batch of fresh droplets is
      gone after the first running tick. */
  lemma {:induction false} AdvanceFresh(ds: seq<Droplet>)
    requires AllFresh(ds)
    ensures Advance(ds) == []
  {
    if |ds| > 0 {
      assert AllFresh(ds[1..]) by {
        forall i | 0 <= i < |ds[1..]|
          ensures ds[1..][i].life == BirthLife
        {
          assert ds[1..][i] == ds[i + 1];
        }
      }
      AdvanceFresh(ds[1..]);
    }
  }
}

=== FILE: kinds.dfy ===
/** The particle kinds of the hydrogen/oxygen chain reaction, their radii,
    their atom content, and the reaction table that turns two particles into
    one molecule. */
module Kinds {

  /** The type tag of a particle. The simulation only ever creates the first
      four; `Other` stands for any other tag, which the radius lookup sends to
      its default branch and the reaction table ignores. */
  datatype Kind = H | O | H2 | H2O | Other

  /** Radius in canvas pixels, used for the merge test, the click hit-test
      and drawing. */
  function Radius(k: Kind): (r: real)
    ensures 10.0 <= r <= 24.0
  {
    match k
    case H => 10.0
    case O => 18.0
    case H2 => 16.0
    case H2O => 24.0
    case Other => 12.0
  }

  /** Hydrogen atoms a particle of kind `k` stands for. */
  function HydrogenAtoms(k: Kind): nat
  {
    match k
    case H => 1
    case H2 => 2
    case H2O => 2
    case _ => 0
  }

  /** Oxygen atoms a particle of kind `k` stands for. */
  function OxygenAtoms(k: Kind): nat
  {
    match k
    case O => 1
    case H2O => 1
    case _ => 0
  }

  /** What happens to two particles that came within merge distance. */
  datatype Reaction = Inert | Forms(product: Kind)

  /** The reaction table, tried in declaration order: H + H gives H2, H2 + O
      (either order) gives H2O, and every other pair is left alone. */
  function React(a: Kind, b: Kind): (r: Reaction)
    ensures r.Forms? ==> r.product == H2 || r.product == H2O
    ensures r.Forms? ==> HydrogenAtoms(r.product) == HydrogenAtoms(a) + HydrogenAtoms(b)
    ensures r.Forms? ==> OxygenAtoms(r.product) == OxygenAtoms(a) + OxygenAtoms(b)
  {
    if a == H && b == H then Forms(H2)
    else if (a == H2 && b == O) || (a == O && b == H2) then Forms(H2O)
    else Inert
  }

  /** Two known kinds whose atoms together make exactly one H2 or one H2O. */
  predicate MakesMolecule(a: Kind, b: Kind)
  {
    && a != Other && b != Other
    && HydrogenAtoms(a) + HydrogenAtoms(b) == 2
    && OxygenAtoms(a) + OxygenAtoms(b) <= 1
  }

  /** The table does not depend on the order of the pair. */
  lemma ReactSymmetric(a: Kind, b: Kind)
    ensures React(a, b) == React(b, a)
  {
  }

  /** The table reacts exactly on the pairs whose atoms make one molecule, so
      H + O, O + O, H + H2, H2 + H2 and anything with H2O stay inert. */
  lemma ReactIffMolecule(a: Kind, b: Kind)
    ensures React(a, b).Forms? <==> MakesMolecule(a, b)
  {
  }
}

=== FILE: merging.dfy ===
/** The per-tick merge pass: a greedy scan over index pairs that turns
    reacting pairs within merge distance into one molecule each, sprays
    droplets where the molecule forms, and reports each molecule formed. */
module Merging {
  import opened Kinds
  import opened Particles
  import opened Droplets
  import opened Census

  /** Droplets sprayed per molecule formed. */
  const DropletsPerMerge: nat := 8

  /** The indices of the two particles one merge consumed, the scan's outer
      index first. */
  datatype Pair = Pair(a: nat, b: nat)

  /** Every index some pair consumed: the set of removed indices. */
  function Endpoints(pairs: seq<Pair>): (e: set<nat>)
    ensures forall t :: 0 <= t < |pairs| ==> pairs[t].a in e && pairs[t].b in e
  {
    if |pairs| == 0 then {}
    else
      var last := pairs[|pairs| - 1];
      assert forall t :: 0 <= t < |pairs| - 1 ==> pairs[..|pairs| - 1][t] == pairs[t];
      Endpoints(pairs[..|pairs| - 1]) + {last.a, last.b}
  }

  /** Two particles that are within merge distance and whose kinds react. */
  predicate Reactive(p: Particle, q: Particle)
  {
    CanMerge(p, q) && React(p.kind, q.kind).Forms?
  }

  /** Every pair names two increasing indices of `ps` that react. */
  predicate PairsReact(ps: seq<Particle>, pairs: seq<Pair>)
  {
    forall t :: 0 <= t < |pairs| ==>
      pairs[t].a < pairs[t].b < |ps| && Reactive(ps[pairs[t].a], ps[pairs[t].b])
  }

  /** Pairs come in increasing order of their first index, and no index is
      consumed by two pairs. */
  predicate Disjoint(pairs: seq<Pair>)
  {
    forall t, u :: 0 <= t < u < |pairs| ==>
      && pairs[t].a < pairs[u].a
      && pairs[u].a != pairs[t].b
      && pairs[u].b != pairs[t].b
  }

  /** Each pair's second index is the first later index that reacts with
      its first one, skipping only indices the earlier pairs had consumed. */
  predicate FirstPartners(ps: seq<Particle>, pairs: seq<Pair>)
  {
    forall t, c {:trigger Reactive(ps[pairs[t].a], ps[c])} ::
      && 0 <= t < |pairs| && pairs[t].a < c < pairs[t].b && c < |ps|
      && Reactive(ps[pairs[t].a], ps[c])
      ==> c in Endpoints(pairs[..t])
  }

  /** No two unconsumed particles below index `i` and after it react. */
  predicate ExhaustedBelow(ps: seq<Particle>, consumed: set<nat>, i: int)
  {
    forall a, b {:trigger Reactive(ps[a], ps[b])} :: 0 <= a < i && a < b < |ps| && a !in consumed && b !in consumed ==>
      !Reactive(ps[a], ps[b])
  }

  /** When each pair was made, no two particles still available then, the
      first below the pair's first index, reacted: the outer scan had found
      nothing to merge before it reached that index. */
  predicate OuterGreedy(ps: seq<Particle>, pairs: seq<Pair>)
  {
    forall t {:trigger ExhaustedBelow(ps, Endpoints(pairs[..t]), pairs[t].a)} :: 0 <= t < |pairs| ==> ExhaustedBelow(ps, Endpoints(pairs[..t]), pairs[t].a)
  }

  /** The molecule two reacting particles form: a new particle of the
      product kind at their midpoint. */
  function Combine(p: Particle, q: Particle, s: Spawn): (m: Particle)
    requires React(p.kind, q.kind).Forms?
    ensures m.kind == React(p.kind, q.kind).product
    ensures 2.0 * m.x == p.x + q.x && 2.0 * m.y == p.y + q.y
    ensures m.scale == 0.0 && !m.paused
  {
    NewParticle(React(p.kind, q.kind).product, (p.x + q.x) / 2.0, (p.y + q.y) / 2.0, s)
  }

  /** The molecules formed by `pairs`, in order; the `t`-th uses the `t`-th
      constructor draw. */
  function Products(ps: seq<Particle>, pairs: seq<Pair>, born: nat -> Spawn): (ms: seq<Particle>)
    requires PairsReact(ps, pairs)
    ensures |ms| == |pairs|
    ensures forall t :: 0 <= t < |ms| ==>
      (ms[t].kind == H2 || ms[t].kind == H2O) && ms[t].scale == 0.0 && !ms[t].paused
  {
    if |pairs| == 0 then []
    else
      var n := |pairs| - 1;
      assert forall t :: 0 <= t < n ==> pairs[..n][t] == pairs[t];
      Products(ps, pairs[..n], born) + [Combine(ps[pairs[n].a], ps[pairs[n].b], born(n))]
  }

  /** Molecule `t` is the one merge `t` forms, with constructor draw `t`. */
  lemma {:induction false} ProductsAt(ps: seq<Particle>, pairs: seq<Pair>, born: nat -> Spawn, t: nat)
    requires PairsReact(ps, pairs) && t < |pairs|
    ensures Products(ps, pairs, born)[t] == Combine(ps[pairs[t].a], ps[pairs[t].b], born(t))
  {
    var n := |pairs| - 1;
    if t < n {
      assert PairsReact(ps, pairs[..n]) by {
        assert forall u :: 0 <= u < n ==> pairs[..n][u] == pairs[u];
      }
      ProductsAt(ps, pairs[..n], born, t);
      assert pairs[..n][t] == pairs[t];
    }
  }

  /** The kinds of a list of particles, in order. */
  function KindsOf(ps: seq<Particle>): (ks: seq<Kind>)
    ensures |ks| == |ps|
    ensures forall i :: 0 <= i < |ps| ==> ks[i] == ps[i].kind
  {
    if |ps| == 0 then [] else KindsOf(ps[..|ps| - 1]) + [ps[|ps| - 1].kind]
  }

  /** Eight new droplets at one point; the `q`-th uses draw `base + q`. */
  function Burst(x: real, y: real, spray: nat -> Spray, base: nat): (ds: seq<Droplet>)
    ensures |ds| == DropletsPerMerge
    ensures forall i :: 0 <= i < |ds| ==> ds[i].x == x && ds[i].y == y && ds[i].life == BirthLife
    ensures forall i :: 0 <= i < |ds| ==> ds[i] == NewDroplet(x, y, spray(base + i))
  {
    var ds := seq(DropletsPerMerge, q requires 0 <= q => NewDroplet(x, y, spray(base + q)));
    assert forall i :: 0 <= i < |ds| ==> ds[i] == NewDroplet(x, y, spray(base + i));
    ds
  }

  /** The droplets sprayed for `pairs`, eight per pair at its midpoint. */
  function Splash(ps: seq<Particle>, pairs: seq<Pair>, spray: nat -> Spray): (ds: seq<Droplet>)
    requires PairsReact(ps, pairs)
    ensures |ds| == DropletsPerMerge * |pairs|
  {
    if |pairs| == 0 then []
    else
      var n := |pairs| - 1;
      assert forall t :: 0 <= t < n ==> pairs[..n][t] == pairs[t];
      var p, q := ps[pairs[n].a], ps[pairs[n].b];
      Splash(ps, pairs[..n], spray) + Burst((p.x + q.x) / 2.0, (p.y + q.y) / 2.0, spray, DropletsPerMerge * n)
  }

  /** Every droplet a pass sprays is new. */
  lemma {:induction false} SplashFresh(ps: seq<Particle>, pairs: seq<Pair>, spray: nat -> Spray)
    requires PairsReact(ps, pairs)
    ensures AllFresh(Splash(ps, pairs, spray))
  {
    if |pairs| > 0 {
      var n := |pairs| - 1;
      assert PairsReact(ps, pairs[..n]) by {
        assert forall t :: 0 <= t < n ==> pairs[..n][t] == pairs[t];
      }
      SplashFresh(ps, pairs[..n], spray);
    }
  }

  /** Droplet `q` of the burst for merge `t` is droplet `8 t + q` of the
      list: it sits at that merge's midpoint and uses spray draw `8 t + q`. */
  lemma {:induction false} SplashAt(ps: seq<Particle>, pairs: seq<Pair>, spray: nat -> Spray, t: nat, q: nat)
    requires PairsReact(ps, pairs) && t < |pairs| && q < DropletsPerMerge
    ensures DropletsPerMerge * t + q < |Splash(ps, pairs, spray)|
    ensures var p, r := ps[pairs[t].a], ps[pairs[t].b];
      Splash(ps, pairs, spray)[DropletsPerMerge * t + q]
        == NewDroplet((p.x + r.x) / 2.0, (p.y + r.y) / 2.0, spray(DropletsPerMerge * t + q))
  {
    var n := |pairs| - 1;
    assert PairsReact(ps, pairs[..n]) by {
      assert forall u :: 0 <= u < n ==> pairs[..n][u] == pairs[u];
    }
    if t < n {
      SplashAt(ps, pairs[..n], spray, t, q);
      assert pairs[..n][t] == pairs[t];
    }
  }

  /** The result of one merge pass. */
  datatype MergeOutcome = MergeOutcome(
    particles: seq<Particle>,
    droplets: seq<Droplet>,
    formed: seq<Kind>)

  /** The inner scan for outer index `i`, from index `j` on: the first index,
      not yet consumed, whose particle reacts with particle `i`, or `|ps|` if
      there is none. Pairs within merge distance whose kinds do not react are
      passed over. */
  function Partner(ps: seq<Particle>, consumed: set<nat>, i: nat, j: nat): (k: nat)
    requires i < j <= |ps|
    ensures j <= k <= |ps|
    ensures k < |ps| ==> k !in consumed && Reactive(ps[i], ps[k])
    ensures forall c {:trigger Reactive(ps[i], ps[c])} :: j <= c < k && c !in consumed ==> !Reactive(ps[i], ps[c])
    decreases |ps| - j
  {
    if j == |ps| then j
    else if j !in consumed && Reactive(ps[i], ps[j]) then j
    else Partner(ps, consumed, i, j + 1)
  }

  /** The outer scan from index `i` on, given the indices consumed and the
      merges made so far: a consumed index is passed over, and any other is
      merged with its partner, if it has one. The result is every merge of
      the pass, in order. */
  function Scan(ps: seq<Particle>, i: nat, consumed: set<nat>, pairs: seq<Pair>): (r: seq<Pair>)
    requires i <= |ps|
    ensures |pairs| <= |r| && r[..|pairs|] == pairs
    decreases |ps| - i
  {
    if i == |ps| then pairs
    else if i in consumed then Scan(ps, i + 1, consumed, pairs)
    else
      var j := Partner(ps, consumed, i, i + 1);
      if j < |ps| then Scan(ps, i + 1, consumed + {i, j}, pairs + [Pair(i, j)])
      else Scan(ps, i + 1, consumed, pairs)
  }

  /** What the scan guarantees once outer indices below `i` are done: the
      pairs so far react, are disjoint and were found greedily, both in the
      outer and in the inner index, and no two unconsumed particles, the
      first below `i`, react. */
  predicate Scanned(ps: seq<Particle>, pairs: seq<Pair>, i: int)
  {
    && PairsReact(ps, pairs) && Disjoint(pairs) && FirstPartners(ps, pairs) && OuterGreedy(ps, pairs)
    && (forall t :: 0 <= t < |pairs| ==> pairs[t].a < i)
    && ExhaustedBelow(ps, Endpoints(pairs), i)
  }

  /** The merges of one pass over `ps`, in the order they happen. */
  function MergePairs(ps: seq<Particle>): (pairs: seq<Pair>)
  {
    Scan(ps, 0, {}, [])
  }

  /** The merges of a pass react, are disjoint, each takes the first
      available partner, and no two particles left over react. */
  lemma MergePairsScanned(ps: seq<Particle>)
    ensures Scanned(ps, MergePairs(ps), |ps|)
  {
    ScanScanned(ps, 0, {}, []);
  }

  /** The merges of a pass react. */
  lemma MergePairsReact(ps: seq<Particle>)
    ensures PairsReact(ps, MergePairs(ps))
  {
    MergePairsScanned(ps);
  }

  /** The scan guarantee pins the merges down: a list of pairs has it
      exactly when it is the list of merges the pass makes. */
  lemma ScannedIffMergePairs(ps: seq<Particle>, pairs: seq<Pair>)
    ensures Scanned(ps, pairs, |ps|) <==> pairs == MergePairs(ps)
  {
    MergePairsScanned(ps);
    if Scanned(ps, pairs, |ps|) {
      ScannedUnique(ps, pairs, MergePairs(ps));
    }
  }

  /** The list a pass leaves, survivors followed by molecules, is one
      particle shorter per merge and holds exactly the atoms of `ps`. */
  lemma MergeBalance(ps: seq<Particle>, born: nat -> Spawn)
    ensures PairsReact(ps, MergePairs(ps))
    ensures |Survivors(ps, Endpoints(MergePairs(ps)))| + 2 * |MergePairs(ps)| == |ps|
    ensures Hydrogen(Survivors(ps, Endpoints(MergePairs(ps))) + Products(ps, MergePairs(ps), born)) == Hydrogen(ps)
    ensures Oxygen(Survivors(ps, Endpoints(MergePairs(ps))) + Products(ps, MergePairs(ps), born)) == Oxygen(ps)
  {
    var pairs := MergePairs(ps);
    MergePairsScanned(ps);
    Balance(ps, pairs, born);
    WeightConcat(Survivors(ps, Endpoints(pairs)), Products(ps, pairs, born), HydrogenAtoms);
    WeightConcat(Survivors(ps, Endpoints(pairs)), Products(ps, pairs, born), OxygenAtoms);
  }

  /** Outer index `i` is skipped: it is consumed, or nothing reacts with it. */
  lemma ScanSkip(ps: seq<Particle>, pairs: seq<Pair>, i: nat)
    requires Scanned(ps, pairs, i) && i < |ps|
    requires i !in Endpoints(pairs) ==>
      forall c {:trigger Reactive(ps[i], ps[c])} :: i < c < |ps| && c !in Endpoints(pairs) ==> !Reactive(ps[i], ps[c])
    ensures Scanned(ps, pairs, i + 1)
  {
    var consumed := Endpoints(pairs);
    forall a, b | 0 <= a < i + 1 && a < b < |ps| && a !in consumed && b !in consumed
      ensures !Reactive(ps[a], ps[b])
    {
      if a < i {
        assert ExhaustedBelow(ps, consumed, i);
      }
    }
  }

  /** Appending a pair keeps the earlier pairs and their prefixes. */
  lemma AppendPair(pairs: seq<Pair>, p: Pair)
    ensures (pairs + [p])[..|pairs|] == pairs
    ensures forall t :: 0 <= t < |pairs| ==> (pairs + [p])[t] == pairs[t]
    ensures Endpoints(pairs + [p]) == Endpoints(pairs) + {p.a, p.b}
  {
    assert (pairs + [p])[..|pairs|] == pairs;
  }

  lemma FirstPartnersExtend(ps: seq<Particle>, pairs: seq<Pair>, i: nat, j: nat)
    requires FirstPartners(ps, pairs) && i < j <= |ps|
    requires forall t :: 0 <= t < |pairs| ==> pairs[t].a < i
    requires forall c {:trigger Reactive(ps[i], ps[c])} :: i < c < j && c !in Endpoints(pairs) ==> !Reactive(ps[i], ps[c])
    ensures FirstPartners(ps, pairs + [Pair(i, j)])
  {
    var pairs' := pairs + [Pair(i, j)];
    AppendPair(pairs, Pair(i, j));
    forall t | 0 <= t < |pairs|
      ensures pairs'[..t] == pairs[..t]
    {
    }
  }

  lemma DisjointExtend(pairs: seq<Pair>, i: nat, j: nat)
    requires Disjoint(pairs) && i < j
    requires forall t :: 0 <= t < |pairs| ==> pairs[t].a < i
    requires i !in Endpoints(pairs) && j !in Endpoints(pairs)
    ensures Disjoint(pairs + [Pair(i, j)])
  {
    AppendPair(pairs, Pair(i, j));
  }

  lemma ExhaustedExtend(ps: seq<Particle>, consumed: set<nat>, i: nat, j: nat)
    requires ExhaustedBelow(ps, consumed, i)
    ensures ExhaustedBelow(ps, consumed + {i, j}, i + 1)
  {
  }

  lemma GreedyExtend(ps: seq<Particle>, pairs: seq<Pair>, i: nat, j: nat)
    requires OuterGreedy(ps, pairs) && ExhaustedBelow(ps, Endpoints(pairs), i)
    ensures OuterGreedy(ps, pairs + [Pair(i, j)])
  {
    var pairs' := pairs + [Pair(i, j)];
    forall t | 0 <= t < |pairs'|
      ensures ExhaustedBelow(ps, Endpoints(pairs'[..t]), pairs'[t].a)
    {
      if t < |pairs| {
        assert pairs'[..t] == pairs[..t];
        assert pairs'[t] == pairs[t];
      } else {
        assert pairs'[..t] == pairs;
      }
    }
  }

  /** Outer index `i` merges with its first reacting partner `j`. */
  lemma ScanMerge(ps: seq<Particle>, pairs: seq<Pair>, i: nat, j: nat)
    requires Scanned(ps, pairs, i)
    requires i < j < |ps| && i !in Endpoints(pairs) && j !in Endpoints(pairs)
    requires Reactive(ps[i], ps[j])
    requires forall c {:trigger Reactive(ps[i], ps[c])} :: i < c < j && c !in Endpoints(pairs) ==> !Reactive(ps[i], ps[c])
    ensures Scanned(ps, pairs + [Pair(i, j)], i + 1)
  {
    AppendPair(pairs, Pair(i, j));
    assert PairsReact(ps, pairs + [Pair(i, j)]);
    DisjointExtend(pairs, i, j);
    FirstPartnersExtend(ps, pairs, i, j);
    GreedyExtend(ps, pairs, i, j);
    ExhaustedExtend(ps, Endpoints(pairs), i, j);
  }

  /** One step of the outer scan keeps the guarantee, one index further. */
  lemma ScanStep(ps: seq<Particle>, i: nat, consumed: set<nat>, pairs: seq<Pair>)
    returns (consumed': set<nat>, pairs': seq<Pair>)
    requires i < |ps| && consumed == Endpoints(pairs) && Scanned(ps, pairs, i)
    ensures Scan(ps, i, consumed, pairs) == Scan(ps, i + 1, consumed', pairs')
    ensures consumed' == Endpoints(pairs') && Scanned(ps, pairs', i + 1)
  {
    consumed', pairs' := consumed, pairs;
    if i !in consumed {
      var j := Partner(ps, consumed, i, i + 1);
      if j < |ps| {
        ScanMerge(ps, pairs, i, j);
        AppendPair(pairs, Pair(i, j));
        consumed', pairs' := consumed + {i, j}, pairs + [Pair(i, j)];
        return;
      }
    }
    ScanSkip(ps, pairs, i);
  }

  /** Scanning on from a state the scan could have reached ends in a state
      that satisfies the whole guarantee. */
  lemma {:induction false} ScanScanned(ps: seq<Particle>, i: nat, consumed: set<nat>, pairs: seq<Pair>)
    requires i <= |ps| && consumed == Endpoints(pairs) && Scanned(ps, pairs, i)
    ensures Scanned(ps, Scan(ps, i, consumed, pairs), |ps|)
    decreases |ps| - i
  {
    if i < |ps| {
      var consumed', pairs' := ScanStep(ps, i, consumed, pairs);
      ScanScanned(ps, i + 1, consumed', pairs');
    }
  }

  /** An index no pair names is not consumed. */
  lemma {:induction false} NotEndpoint(pairs: seq<Pair>, x: nat)
    requires forall u :: 0 <= u < |pairs| ==> pairs[u].a != x && pairs[u].b != x
    ensures x !in Endpoints(pairs)
  {
    if |pairs| > 0 {
      var n := |pairs| - 1;
      assert forall u :: 0 <= u < n ==> pairs[..n][u] == pairs[u];
      NotEndpoint(pairs[..n], x);
    }
  }

  /** Neither index of a merge was consumed by the merges before it. */
  lemma PairsFresh(ps: seq<Particle>, pairs: seq<Pair>)
    requires Disjoint(pairs) && PairsReact(ps, pairs)
    ensures forall k :: 0 <= k < |pairs| ==>
      pairs[k].a !in Endpoints(pairs[..k]) && pairs[k].b !in Endpoints(pairs[..k])
  {
    forall k | 0 <= k < |pairs|
      ensures pairs[k].a !in Endpoints(pairs[..k]) && pairs[k].b !in Endpoints(pairs[..k])
    {
      var before := pairs[..k];
      assert forall u :: 0 <= u < k ==> before[u] == pairs[u];
      NotEndpoint(before, pairs[k].a);
      NotEndpoint(before, pairs[k].b);
    }
  }

  /** Two pairings with the scan guarantee that agree on their first `k`
      merges agree on merge `k` too: the outer greediness fixes its first
      index and the inner greediness its second. */
  lemma SamePair(ps: seq<Particle>, p1: seq<Pair>, p2: seq<Pair>, k: nat)
    requires Scanned(ps, p1, |ps|) && Scanned(ps, p2, |ps|)
    requires k < |p1| && k < |p2| && p1[..k] == p2[..k]
    ensures p1[k] == p2[k]
  {
    PairsFresh(ps, p1);
    PairsFresh(ps, p2);
    assert ExhaustedBelow(ps, Endpoints(p1[..k]), p1[k].a);
    assert ExhaustedBelow(ps, Endpoints(p2[..k]), p2[k].a);
    assert Reactive(ps[p1[k].a], ps[p1[k].b]) && Reactive(ps[p2[k].a], ps[p2[k].b]);
    assert p1[k].a == p2[k].a;
    assert Reactive(ps[p2[k].a], ps[p1[k].b]) && Reactive(ps[p1[k].a], ps[p2[k].b]);
  }

  lemma PrefixSnoc<T>(s: seq<T>, k: nat)
    requires k < |s|
    ensures s[..k] + [s[k]] == s[..k + 1]
  {
  }

  lemma {:induction false} SamePrefix(ps: seq<Particle>, p1: seq<Pair>, p2: seq<Pair>, k: nat)
    requires Scanned(ps, p1, |ps|) && Scanned(ps, p2, |ps|)
    requires k <= |p1| && k <= |p2|
    ensures p1[..k] == p2[..k]
  {
    if k > 0 {
      SamePrefix(ps, p1, p2, k - 1);
      SamePair(ps, p1, p2, k - 1);
      PrefixSnoc(p1, k - 1);
      PrefixSnoc(p2, k - 1);
    }
  }

  /** Merge `n` of `pairs` exists and its two particles react. */
  predicate ReactsAt(ps: seq<Particle>, pairs: seq<Pair>, n: nat)
  {
    n < |pairs| && pairs[n].a < |ps| && pairs[n].b < |ps| && Reactive(ps[pairs[n].a], ps[pairs[n].b])
  }

  /** Two pairings with the scan guarantee that agree up to the length of
      the shorter one have the same length: a further merge in the longer
      one would react among particles the shorter one leaves unconsumed. */
  lemma SameLength(ps: seq<Particle>, p1: seq<Pair>, p2: seq<Pair>, n: nat)
    requires Scanned(ps, p1, |ps|) && Scanned(ps, p2, |ps|)
    requires n <= |p1| && n <= |p2| && (n == |p1| || n == |p2|) && p1[..n] == p2[..n]
    ensures |p1| == n && |p2| == n
  {
    PairsFresh(ps, p1);
    PairsFresh(ps, p2);
    assert p1[..|p1|] == p1 && p2[..|p2|] == p2;
    assert n < |p1| ==> ReactsAt(ps, p1, n);
    assert n < |p2| ==> ReactsAt(ps, p2, n);
  }

  /** At most one pairing has the scan guarantee. */
  lemma ScannedUnique(ps: seq<Particle>, p1: seq<Pair>, p2: seq<Pair>)
    requires Scanned(ps, p1, |ps|) && Scanned(ps, p2, |ps|)
    ensures p1 == p2
  {
    var n := if |p1| <= |p2| then |p1| else |p2|;
    SamePrefix(ps, p1, p2, n);
    SameLength(ps, p1, p2, n);
    assert p1[..n] == p1 && p2[..n] == p2;
  }

  /** Every merge removes two particles and adds one molecule of the same
      atoms, so over disjoint reacting pairs the survivors are two fewer per
      merge and survivors plus molecules hold exactly the atoms of `ps`. */
  lemma {:induction false} Balance(ps: seq<Particle>, pairs: seq<Pair>, born: nat -> Spawn)
    requires PairsReact(ps, pairs) && Disjoint(pairs)
    ensures |Survivors(ps, Endpoints(pairs))| + 2 * |pairs| == |ps|
    ensures Hydrogen(Survivors(ps, Endpoints(pairs))) + Hydrogen(Products(ps, pairs, born)) == Hydrogen(ps)
    ensures Oxygen(Survivors(ps, Endpoints(pairs))) + Oxygen(Products(ps, pairs, born)) == Oxygen(ps)
  {
    if |pairs| == 0 {
      SurvivorsNone(ps);
    } else {
      var n := |pairs| - 1;
      var init, last := pairs[..n], pairs[n];
      assert pairs == init + [last];
      AppendPair(init, last);
      Balance(ps, init, born);
      NotEndpoint(init, last.a);
      NotEndpoint(init, last.b);
      ConsumePair(ps, Endpoints(init), last.a, last.b, Products(ps, init, born),
                  Combine(ps[last.a], ps[last.b], born(n)));
    }
  }

  /** A merge found by the scan is a reacting pair, so the merges stay
      reacting pairs. */
  lemma PairsReactSnoc(ps: seq<Particle>, pairs: seq<Pair>, i: nat, j: nat)
    requires PairsReact(ps, pairs) && i < j < |ps| && Reactive(ps[i], ps[j])
    ensures PairsReact(ps, pairs + [Pair(i, j)])
  {
    AppendPair(pairs, Pair(i, j));
  }

  /** Adding a merge appends its molecule to the products. */
  lemma ProductsSnoc(ps: seq<Particle>, pairs: seq<Pair>, i: nat, j: nat, born: nat -> Spawn)
    requires PairsReact(ps, pairs) && i < j < |ps| && Reactive(ps[i], ps[j])
    ensures Products(ps, pairs + [Pair(i, j)], born) == Products(ps, pairs, born) + [Combine(ps[i], ps[j], born(|pairs|))]
  {
    AppendPair(pairs, Pair(i, j));
    assert PairsReact(ps, pairs + [Pair(i, j)]);
  }

  /** Adding a merge appends its burst to the droplet list. */
  lemma SprayedSnoc(ps: seq<Particle>, drops: seq<Droplet>, pairs: seq<Pair>, i: nat, j: nat, spray: nat -> Spray)
    requires PairsReact(ps, pairs) && i < j < |ps| && Reactive(ps[i], ps[j])
    ensures drops + Splash(ps, pairs + [Pair(i, j)], spray)
         == drops + Splash(ps, pairs, spray) + Burst((ps[i].x + ps[j].x) / 2.0, (ps[i].y + ps[j].y) / 2.0, spray, DropletsPerMerge * |pairs|)
  {
    AppendPair(pairs, Pair(i, j));
    assert PairsReact(ps, pairs + [Pair(i, j)]);
    var burst := Burst((ps[i].x + ps[j].x) / 2.0, (ps[i].y + ps[j].y) / 2.0, spray, DropletsPerMerge * |pairs|);
    assert Splash(ps, pairs + [Pair(i, j)], spray) == Splash(ps, pairs, spray) + burst;
    AppendAssoc(drops, Splash(ps, pairs, spray), burst);
  }

  lemma AppendAssoc<T>(a: seq<T>, b: seq<T>, c: seq<T>)
    ensures a + b + c == a + (b + c)
  {
  }

  lemma KindsOfSnoc(ps: seq<Particle>, p: Particle)
    ensures KindsOf(ps + [p]) == KindsOf(ps) + [p.kind]
  {
    assert (ps + [p])[..|ps|] == ps;
  }

  /** The inner loop of the pass: returns the partner of outer index `i`. */
  method FindPartner(ps: seq<Particle>, consumed: set<nat>, i: nat) returns (j: nat)
    requires i < |ps|
    ensures j == Partner(ps, consumed, i, i + 1)
    ensures i < j <= |ps|
    ensures j < |ps| ==> j !in consumed && Reactive(ps[i], ps[j])
    ensures forall c {:trigger Reactive(ps[i], ps[c])} :: i < c < j && c !in consumed ==> !Reactive(ps[i], ps[c])
  {
    j := i + 1;
    while j < |ps|
      invariant i < j <= |ps|
      invariant Partner(ps, consumed, i, j) == Partner(ps, consumed, i, i + 1)
    {
      if j !in consumed && CanMerge(ps[i], ps[j]) {
        match React(ps[i].kind, ps[j].kind) {
          case Forms(_) => return;
          case Inert =>
        }
      }
      j := j + 1;
    }
  }

  /** The pass's working state: the consumed indices (the component's
      `remove` set), the merges so far, the molecules set aside (`add`), the
      droplet list, and the product kinds reported. */
  datatype PassState = PassState(
    consumed: set<nat>,
    pairs: seq<Pair>,
    add: seq<Particle>,
    sprayed: seq<Droplet>,
    formed: seq<Kind>)

  /** The working state is what the merges so far produce from `ps`: the
      consumed set is their endpoints, `add` their molecules, the droplet
      list `drops` followed by their bursts, and the reports their kinds
      when a callback is registered. */
  predicate Tracks(ps: seq<Particle>, drops: seq<Droplet>, notify: bool, born: nat -> Spawn, spray: nat -> Spray,
                   st: PassState)
  {
    && st.consumed == Endpoints(st.pairs) && PairsReact(ps, st.pairs)
    && st.add == Products(ps, st.pairs, born)
    && st.sprayed == drops + Splash(ps, st.pairs, spray)
    && st.formed == (if notify then KindsOf(st.add) else [])
  }

  /** The merge of `i` with `j`: both are consumed, their molecule is set
      aside, eight droplets are sprayed at their midpoint, and the product
      kind is reported when a callback is registered. */
  method Record(ps: seq<Particle>, drops: seq<Droplet>, notify: bool, born: nat -> Spawn, spray: nat -> Spray,
                st: PassState, i: nat, j: nat) returns (st': PassState)
    requires Tracks(ps, drops, notify, born, spray, st)
    requires i < j < |ps| && Reactive(ps[i], ps[j])
    ensures Tracks(ps, drops, notify, born, spray, st')
    ensures st'.consumed == st.consumed + {i, j} && st'.pairs == st.pairs + [Pair(i, j)]
    ensures |st'.add| == |st.add| + 1 && |st'.sprayed| == |st.sprayed| + DropletsPerMerge
  {
    var p, q := ps[i], ps[j];
    var m := Combine(p, q, born(|st.pairs|));
    var burst := Burst((p.x + q.x) / 2.0, (p.y + q.y) / 2.0, spray, DropletsPerMerge * |st.pairs|);
    PairsReactSnoc(ps, st.pairs, i, j);
    ProductsSnoc(ps, st.pairs, i, j, born);
    SprayedSnoc(ps, drops, st.pairs, i, j, spray);
    AppendPair(st.pairs, Pair(i, j));
    KindsOfSnoc(st.add, m);
    st' := PassState(st.consumed + {i, j}, st.pairs + [Pair(i, j)], st.add + [m], st.sprayed + burst,
                     if notify then st.formed + [m.kind] else st.formed);
  }

  /** One round of the outer loop: a consumed index is passed over, and any
      other is merged with its partner, if it has one. */
  method Visit(ps: seq<Particle>, drops: seq<Droplet>, notify: bool, born: nat -> Spawn, spray: nat -> Spray,
               st: PassState, i: nat) returns (st': PassState)
    requires Tracks(ps, drops, notify, born, spray, st) && i < |ps|
    ensures Tracks(ps, drops, notify, born, spray, st')
    ensures Scan(ps, i, st.consumed, st.pairs) == Scan(ps, i + 1, st'.consumed, st'.pairs)
  {
    st' := st;
    if i !in st.consumed {
      var j := FindPartner(ps, st.consumed, i);
      if j < |ps| {
        st' := Record(ps, drops, notify, born, spray, st, i, j);
      }
    }
  }

  /** One merge pass over `ps`. Every outer index not yet consumed is paired
      with its first reacting partner; both are consumed and the molecule
      they form is set aside, so it cannot react again in this pass. Each
      merge appends eight droplets to `drops` and, when a callback is
      registered (`notify`), reports the product kind. The result keeps the
      unconsumed particles in their order, followed by the molecules.

      `pairs` lists the merges in the order they happened. */
  method MergePass(ps: seq<Particle>, drops: seq<Droplet>, notify: bool, born: nat -> Spawn, spray: nat -> Spray)
    returns (out: MergeOutcome, pairs: seq<Pair>)
    ensures pairs == MergePairs(ps) && PairsReact(ps, pairs)
    ensures out.particles == Survivors(ps, Endpoints(pairs)) + Products(ps, pairs, born)
    ensures |Survivors(ps, Endpoints(pairs))| == |ps| - 2 * |pairs|
    ensures |out.particles| == |ps| - |pairs|
    ensures out.droplets == drops + Splash(ps, pairs, spray)
    ensures |out.droplets| == |drops| + DropletsPerMerge * |pairs|
    ensures out.formed == if notify then KindsOf(Products(ps, pairs, born)) else []
    ensures Hydrogen(out.particles) == Hydrogen(ps)
    ensures Oxygen(out.particles) == Oxygen(ps)
  {
    var st := PassState({}, [], [], drops, []);
    for i := 0 to |ps|
      invariant Tracks(ps, drops, notify, born, spray, st)
      invariant Scan(ps, i, st.consumed, st.pairs) == Scan(ps, 0, {}, [])
    {
      st := Visit(ps, drops, notify, born, spray, st, i);
    }
    pairs := st.pairs;
    assert pairs == MergePairs(ps);
    out := MergeOutcome(Survivors(ps, st.consumed) + st.add, st.sprayed, st.formed);
    MergeBalance(ps, born);
  }

  /** Consuming a reacting pair and adding its molecule keeps the atom
      balance and shortens the survivors by two. */
  lemma ConsumePair(ps: seq<Particle>, consumed: set<nat>, i: nat, j: nat, add: seq<Particle>, m: Particle)
    requires i < j < |ps| && i !in consumed && j !in consumed
    requires React(ps[i].kind, ps[j].kind).Forms? && m.kind == React(ps[i].kind, ps[j].kind).product
    ensures |Survivors(ps, consumed + {i, j})| + 2 == |Survivors(ps, consumed)|
    ensures Hydrogen(Survivors(ps, consumed + {i, j})) + Hydrogen(add + [m])
         == Hydrogen(Survivors(ps, consumed)) + Hydrogen(add)
    ensures Oxygen(Survivors(ps, consumed + {i, j})) + Oxygen(add + [m])
         == Oxygen(Survivors(ps, consumed)) + Oxygen(add)
  {
    assert consumed + {i, j} == consumed + {i} + {j};
    SurvivorsRemove(ps, consumed, i, HydrogenAtoms);
    SurvivorsRemove(ps, consumed + {i}, j, HydrogenAtoms);
    SurvivorsRemove(ps, consumed, i, OxygenAtoms);
    SurvivorsRemove(ps, consumed + {i}, j, OxygenAtoms);
    WeightConcat(add, [m], HydrogenAtoms);
    WeightConcat(add, [m], OxygenAtoms);
    assert [m][..0] == [];
  }
}

=== FILE: particle.dfy ===
/** A simulated body: its kinematic step (jitter, speed clamp, wall
    reflection, spawn-in growth) and the two distance tests, merge and
    click. Coordinates are exact reals; the Euclidean distance is compared
    through its square. */
module Particles {
  import opened Kinds

  /** Speed limit applied to each velocity component after jitter. */
  const MaxSpeed: real := 1.5
  /** Factor applied to a velocity component on wall contact. */
  const Restitution: real := 0.85
  /** Width of the per-tick velocity jitter: a uniform draw less one half, times 0.08. */
  const JitterSpan: real := 0.08
  /** Spawn-in growth of the scale per tick. */
  const ScaleStep: real := 0.05
  /** Advance of the glow phase per tick. */
  const GlowStep: real := 0.05
  /** Extra distance beyond the two radii within which particles merge. */
  const MergeSlack: real := 5.0

  datatype Particle = Particle(
    kind: Kind,
    x: real, y: real,
    vx: real, vy: real,
    scale: real,
    glow: real,
    paused: bool)

  /** The random draws of the particle constructor: two uniform values in
      [0, 1) for the velocity, and the initial glow phase itself, which the
      constructor draws uniformly in [0, 2 pi). */
  datatype Spawn = Spawn(rvx: real, rvy: real, glow: real)

  /** The two uniform draws in [0, 1) that jitter a particle's velocity in
      one tick. */
  datatype Jitter = Jitter(rx: real, ry: real)

  function Min(a: real, b: real): real { if a <= b then a else b }

  function Max(a: real, b: real): real { if a >= b then a else b }

  /** `v` limited to the interval from `lo` to `hi`; the upper limit applies first, so when the interval is empty the lower bound wins. */
  function Clamp(lo: real, hi: real, v: real): (c: real)
    ensures lo <= c
    ensures lo <= hi ==> c <= hi
    ensures lo <= v <= hi ==> c == v
    ensures v < lo ==> c == lo
    ensures lo <= hi < v ==> c == hi
    ensures hi < lo ==> c == lo
  {
    Max(lo, Min(hi, v))
  }

  /** A new particle: not yet grown, not paused, moving with a random
      velocity of at most one unit per axis. */
  function NewParticle(kind: Kind, x: real, y: real, s: Spawn): (p: Particle)
    ensures p.kind == kind && p.x == x && p.y == y
    ensures p.scale == 0.0 && !p.paused
    ensures 0.0 <= s.rvx < 1.0 ==> -1.0 <= p.vx < 1.0
    ensures 0.0 <= s.rvy < 1.0 ==> -1.0 <= p.vy < 1.0
  {
    Particle(kind, x, y, (s.rvx - 0.5) * 2.0, (s.rvy - 0.5) * 2.0, 0.0, s.glow, false)
  }

  /** One tick of spawn-in growth. */
  function GrowScale(s: real): (t: real)
    ensures s <= t
    ensures s <= 1.0 ==> t <= 1.0
    ensures s < 1.0 ==> s < t
  {
    if s < 1.0 then Min(1.0, s + ScaleStep) else s
  }

  /** The scale of a particle after `n` running ticks from birth. */
  function Grown(n: nat): real
  {
    if n == 0 then 0.0 else GrowScale(Grown(n - 1))
  }

  /** A new particle grows linearly and is full size after twenty ticks. */
  lemma {:induction false} GrownAfter(n: nat)
    ensures Grown(n) == Min(1.0, n as real * ScaleStep)
  {
    if n > 0 {
      GrownAfter(n - 1);
    }
  }

  /** Position and velocity along one axis. */
  datatype Axis = Axis(pos: real, v: real)

  /** The wall test along one axis: a disc of radius `r` that touches or
      crosses either wall of `[0, extent]` has its velocity reversed and
      damped and its centre clamped back to `[r, extent - r]`. */
  function Bounce(pos: real, v: real, r: real, extent: real): (a: Axis)
    requires 0.0 < r
    ensures r <= a.pos
    ensures 2.0 * r <= extent ==> a.pos <= extent - r
    ensures extent < 2.0 * r ==> a.pos == r
    ensures r < pos < extent - r ==> a == Axis(pos, v)
    ensures a.pos == pos || a.v == -Restitution * v
    ensures pos - r <= 0.0 || pos + r >= extent ==> a.v == -Restitution * v
    ensures pos <= r && 2.0 * r <= extent ==> a.pos == r
    ensures extent - r <= pos && 2.0 * r <= extent ==> a.pos == extent - r
    ensures -MaxSpeed <= v <= MaxSpeed ==> -MaxSpeed <= a.v <= MaxSpeed
  {
    if pos - r <= 0.0 || pos + r >= extent then
      Axis(Clamp(r, extent - r, pos), v * -Restitution)
    else
      Axis(pos, v)
  }

  /** One tick of a particle on a `w` by `h` canvas. A paused particle is
      left exactly as it is. Otherwise it grows, its glow phase advances,
      its velocity is jittered and clamped to the speed limit, it moves by
      that velocity, and it bounces off the walls: a particle clear of both
      walls keeps the new velocity and position, and one touching a wall has
      the velocity reversed and damped and is put back against that wall. */
  function Update(p: Particle, w: real, h: real, j: Jitter): (q: Particle)
    ensures p.paused ==> q == p
    ensures !p.paused ==> q.kind == p.kind && !q.paused
    ensures !p.paused ==> q.glow == p.glow + GlowStep
    ensures !p.paused ==> q.scale == GrowScale(p.scale)
    ensures !p.paused ==> -MaxSpeed <= q.vx <= MaxSpeed && -MaxSpeed <= q.vy <= MaxSpeed
    ensures !p.paused && 2.0 * Radius(p.kind) <= w ==> Radius(p.kind) <= q.x <= w - Radius(p.kind)
    ensures !p.paused && 2.0 * Radius(p.kind) <= h ==> Radius(p.kind) <= q.y <= h - Radius(p.kind)
    ensures !p.paused && w < 2.0 * Radius(p.kind) ==> q.x == Radius(p.kind)
    ensures !p.paused && h < 2.0 * Radius(p.kind) ==> q.y == Radius(p.kind)
    ensures !p.paused ==>
      var r, v := Radius(p.kind), Clamp(-MaxSpeed, MaxSpeed, p.vx + (j.rx - 0.5) * JitterSpan);
      && (r < p.x + v < w - r ==> q.x == p.x + v && q.vx == v)
      && (p.x + v <= r || w - r <= p.x + v ==> q.vx == -Restitution * v)
      && (p.x + v <= r && 2.0 * r <= w ==> q.x == r)
      && (w - r <= p.x + v && 2.0 * r <= w ==> q.x == w - r)
    ensures !p.paused ==>
      var r, v := Radius(p.kind), Clamp(-MaxSpeed, MaxSpeed, p.vy + (j.ry - 0.5) * JitterSpan);
      && (r < p.y + v < h - r ==> q.y == p.y + v && q.vy == v)
      && (p.y + v <= r || h - r <= p.y + v ==> q.vy == -Restitution * v)
      && (p.y + v <= r && 2.0 * r <= h ==> q.y == r)
      && (h - r <= p.y + v && 2.0 * r <= h ==> q.y == h - r)
  {
    if p.paused then p
    else
      var vx := Clamp(-MaxSpeed, MaxSpeed, p.vx + (j.rx - 0.5) * JitterSpan);
      var vy := Clamp(-MaxSpeed, MaxSpeed, p.vy + (j.ry - 0.5) * JitterSpan);
      var r := Radius(p.kind);
      var ax := Bounce(p.x + vx, vx, r, w);
      var ay := Bounce(p.y + vy, vy, r, h);
      Particle(p.kind, ax.pos, ay.pos, ax.v, ay.v, GrowScale(p.scale), p.glow + GlowStep, p.paused)
  }

  /** Squared Euclidean distance between two points. */
  function DistSq(x1: real, y1: real, x2: real, y2: real): (d: real)
    ensures 0.0 <= d
  {
    (x1 - x2) * (x1 - x2) + (y1 - y2) * (y1 - y2)
  }

  /** The largest centre distance (exclusive) at which two particles merge. */
  function Reach(a: Particle, b: Particle): (r: real)
    ensures 25.0 <= r
  {
    Radius(a.kind) + Radius(b.kind) + MergeSlack
  }

  /** The merge-distance test, on squared distances. */
  predicate CanMerge(a: Particle, b: Particle)
  {
    DistSq(a.x, a.y, b.x, b.y) < Reach(a, b) * Reach(a, b)
  }

  /** The click hit-test: the point lies strictly inside the particle's disc. */
  predicate Hits(p: Particle, x: real, y: real)
  {
    DistSq(p.x, p.y, x, y) < Radius(p.kind) * Radius(p.kind)
  }

  /** For non-negative reals, comparing squares is comparing the values. */
  lemma SquaresCompare(d: real, b: real)
    requires 0.0 <= d && 0.0 < b
    ensures d * d < b * b <==> d < b
  {
    var dd, db, bb := d * d, d * b, b * b;
    if d < b {
      assert dd <= db;
      assert db < bb;
    } else {
      assert bb <= db;
      assert db <= dd;
    }
  }

  /** The squared test agrees with the component's test on the true distance
      `d`: two particles merge iff their centres are strictly closer than the
      sum of their radii plus five. */
  lemma CanMergeWithinReach(a: Particle, b: Particle, d: real)
    requires 0.0 <= d && d * d == DistSq(a.x, a.y, b.x, b.y)
    ensures CanMerge(a, b) <==> d < Radius(a.kind) + Radius(b.kind) + MergeSlack
  {
    SquaresCompare(d, Reach(a, b));
  }

  /** The merge test does not depend on the order of the pair. */
  lemma CanMergeSymmetric(a: Particle, b: Particle)
    ensures CanMerge(a, b) <==> CanMerge(b, a)
  {
    assert DistSq(a.x, a.y, b.x, b.y) == DistSq(b.x, b.y, a.x, a.y);
  }

  /** The squared hit-test agrees with comparing the true distance `d` from
      the click to the centre against the radius. */
  lemma HitsWithinRadius(p: Particle, x: real, y: real, d: real)
    requires 0.0 <= d && d * d == DistSq(p.x, p.y, x, y)
    ensures Hits(p, x, y) <==> d < Radius(p.kind)
  {
    SquaresCompare(d, Radius(p.kind));
  }
}

=== FILE: population.dfy ===
/** The particle population outside the merge pass: the initial seeding of
    atoms when the canvas is mounted, and the random top-up at the end of
    every running tick. */
module Population {
  import opened Kinds
  import opened Particles

  /** The particle budget when the host passes none. */
  const DefaultBudget: int := 60

  /** The kinds the initial seeding draws from: H twice as likely as O. */
  const SeedPool: seq<Kind> := [H, H, H, H, O, O]
  /** The kinds the top-up draws from: H three times as likely as O. */
  const RefillPool: seq<Kind> := [H, H, H, O]
  /** The initial population is this share of the particle budget ... */
  const SeedShare: real := 0.7
  /** ... but never more than this. */
  const SeedLimit: real := 40.0
  /** Chance per draw that the top-up adds one more atom. */
  const SpawnChance: real := 0.015
  /** New atoms are placed at least this far from each edge of the canvas. */
  const Margin: real := 40.0

  /** A value a uniform draw in [0, 1) can take. */
  predicate Unit(r: real)
  {
    0.0 <= r < 1.0
  }

  /** The random draws that place one new atom: one to pick its kind, two
      for its position, and the constructor's own draws. */
  datatype AtomDraw = AtomDraw(pick: real, fx: real, fy: real, spawn: Spawn)

  /** The kind draws lie in [0, 1), where a uniform draw puts them. */
  ghost predicate Drawable(draws: nat -> AtomDraw)
  {
    forall i: nat :: Unit(draws(i).pick)
  }

  /** An atom as seeding and the top-up create it: H or O, at scale zero,
      not paused. */
  predicate FreshAtom(p: Particle)
  {
    (p.kind == H || p.kind == O) && p.scale == 0.0 && !p.paused
  }

  /** Particles exactly as seeding leaves them. */
  predicate SeedLike(ps: seq<Particle>)
  {
    forall i :: 0 <= i < |ps| ==> FreshAtom(ps[i])
  }

  /** The kind in the slot of `pool` that the uniform draw `r` falls in. */
  function PickKind(pool: seq<Kind>, r: real): (k: Kind)
    requires |pool| > 0 && Unit(r)
    ensures k in pool
  {
    var n := |pool| as real;
    var x := r * n;
    assert x < n by {
      assert r * n < 1.0 * n;
    }
    pool[x.Floor]
  }

  /** Every slot of the pool is picked by the draws in one interval of
      width `1 / |pool|`: the pick is uniform over the slots. */
  lemma PickKindSlot(pool: seq<Kind>, r: real, q: nat)
    requires q < |pool| && Unit(r)
    requires q as real <= r * |pool| as real < q as real + 1.0
    ensures PickKind(pool, r) == pool[q]
  {
  }

  /** The seeding pool yields H and O only, and both can occur. */
  lemma SeedPoolKinds(r: real)
    requires Unit(r)
    ensures PickKind(SeedPool, r) == H || PickKind(SeedPool, r) == O
    ensures r < 4.0 / 6.0 ==> PickKind(SeedPool, r) == H
    ensures 4.0 / 6.0 <= r ==> PickKind(SeedPool, r) == O
  {
    var x := r * 6.0;
    if r < 4.0 / 6.0 {
      assert x < 4.0;
    } else {
      assert 4.0 <= x;
    }
  }

  /** The top-up pool yields H and O only, O for the top quarter of draws. */
  lemma RefillPoolKinds(r: real)
    requires Unit(r)
    ensures PickKind(RefillPool, r) == H || PickKind(RefillPool, r) == O
    ensures r < 0.75 ==> PickKind(RefillPool, r) == H
    ensures 0.75 <= r ==> PickKind(RefillPool, r) == O
  {
    var x := r * 4.0;
    if r < 0.75 {
      assert x < 3.0;
    } else {
      assert 3.0 <= x;
    }
  }

  /** A uniform draw scales a non-negative span into the span. */
  lemma ScaledWithin(f: real, span: real)
    requires Unit(f) && 0.0 <= span
    ensures 0.0 <= f * span <= span
  {
    assert f * span <= 1.0 * span;
  }

  /** A coordinate placed uniformly by the draw `f` along an extent shrunk
      by the margin at both ends. */
  function Place(f: real, extent: real): (c: real)
    ensures Unit(f) && 2.0 * Margin <= extent ==> Margin <= c <= extent - Margin
  {
    var span := extent - 2.0 * Margin;
    var offset := f * span;
    assert Unit(f) && 0.0 <= span ==> 0.0 <= offset <= span by {
      if Unit(f) && 0.0 <= span {
        ScaledWithin(f, span);
      }
    }
    Margin + offset
  }

  /** A new atom of a kind drawn from `pool`, placed uniformly in the canvas
      shrunk by the margin on every side. */
  function NewAtom(pool: seq<Kind>, w: nat, h: nat, d: AtomDraw): (p: Particle)
    requires |pool| > 0 && Unit(d.pick)
    ensures p.kind in pool && p.scale == 0.0 && !p.paused
    ensures Unit(d.fx) && 2.0 * Margin <= w as real ==> Margin <= p.x <= w as real - Margin
    ensures Unit(d.fy) && 2.0 * Margin <= h as real ==> Margin <= p.y <= h as real - Margin
  {
    NewParticle(PickKind(pool, d.pick), Place(d.fx, w as real), Place(d.fy, h as real), d.spawn)
  }

  /** The bound the seeding loop counts up to: the smaller of 0.7 m and 40. */
  function SeedBound(m: int): (b: real)
    ensures b <= SeedLimit && b <= m as real * SeedShare
    ensures b == SeedLimit || b == m as real * SeedShare
  {
    Min(m as real * SeedShare, SeedLimit)
  }

  /** The size of the initial population for a budget of `m` particles: the
      number of naturals below `SeedBound(m)`, which is the least natural not
      below it, so the bound rounded up, or zero when it is not positive. */
  function SeedCount(m: int): (n: nat)
    ensures SeedBound(m) <= n as real
    ensures n > 0 ==> ((n - 1) as real) < SeedBound(m)
  {
    var x := SeedBound(m);
    if x <= 0.0 then 0 else -((-x).Floor)
  }

  /** The initial population never exceeds forty, nor the budget. */
  lemma SeedCountBounds(m: int)
    ensures SeedCount(m) <= 40
    ensures m <= 0 ==> SeedCount(m) == 0
    ensures 0 <= m ==> SeedCount(m) <= m
  {
  }

  /** With the default budget of sixty the seeding makes forty atoms; with a
      budget of ten it makes seven, and with a budget of one, one. */
  lemma SeedCountExamples()
    ensures SeedCount(DefaultBudget) == 40
    ensures SeedCount(10) == 7
    ensures SeedCount(1) == 1
  {
  }

  /** The initial seeding. With a zero-sized canvas it does nothing and the
      list `ps` is kept; otherwise the list is replaced by `SeedCount(m)` new
      atoms, the `i`-th placed with draw `i`. */
  method Seed(ps: seq<Particle>, m: int, w: nat, h: nat, draws: nat -> AtomDraw) returns (qs: seq<Particle>)
    requires Drawable(draws)
    ensures w == 0 || h == 0 ==> qs == ps
    ensures w > 0 && h > 0 ==> |qs| == SeedCount(m)
    ensures w > 0 && h > 0 ==> forall i :: 0 <= i < |qs| ==> qs[i] == NewAtom(SeedPool, w, h, draws(i))
    ensures w > 0 && h > 0 ==> SeedLike(qs)
  {
    if w == 0 || h == 0 {
      return ps;
    }
    var initial := SeedBound(m);
    qs := [];
    var i: nat := 0;
    while (i as real) < initial
      invariant |qs| == i && (i == 0 || ((i - 1) as real) < initial)
      invariant forall k :: 0 <= k < |qs| ==> qs[k] == NewAtom(SeedPool, w, h, draws(k))
      invariant SeedLike(qs)
      decreases 40 - i
    {
      var a := NewAtom(SeedPool, w, h, draws(i));
      SeedPoolKinds(draws(i).pick);
      qs := qs + [a];
      i := i + 1;
    }
  }

  /** `after` is `before` followed by new atoms from the top-up pool, the
      `k`-th of them placed with draw `k`. */
  ghost predicate ToppedUp(before: seq<Particle>, after: seq<Particle>, w: nat, h: nat, draws: nat -> AtomDraw)
    requires Drawable(draws)
  {
    && |before| <= |after| && after[..|before|] == before
    && forall i :: |before| <= i < |after| ==> after[i] == NewAtom(RefillPool, w, h, draws(i - |before|))
  }

  /** The coins decide how many atoms the top-up appends to `before`: every
      appended atom won its coin, and a top-up that stopped below the budget
      `m` stopped on a losing coin. */
  ghost predicate CoinsDecide(before: seq<Particle>, after: seq<Particle>, m: int, coin: nat -> real)
  {
    && (forall k: nat :: k < |after| - |before| ==> coin(k) < SpawnChance)
    && (|before| <= |after| < m ==> SpawnChance <= coin(|after| - |before|))
  }

  /** The top-up at the end of a running tick: while the list is below the
      budget `m` and the `k`-th coin comes up under 1.5%, append a new atom
      placed with draw `k`. The list only grows, by H and O atoms, and never
      past the larger of its old length and the budget; each atom added had
      a winning coin, and unless the budget was reached the next coin lost. */
  method Replenish(ps: seq<Particle>, m: int, w: nat, h: nat, coin: nat -> real, draws: nat -> AtomDraw)
    returns (qs: seq<Particle>)
    requires Drawable(draws)
    ensures ToppedUp(ps, qs, w, h, draws)
    ensures forall i :: |ps| <= i < |qs| ==> FreshAtom(qs[i])
    ensures |qs| <= |ps| || |qs| <= m
    ensures CoinsDecide(ps, qs, m, coin)
  {
    qs := ps;
    var k: nat := 0;
    while |qs| < m && coin(k) < SpawnChance
      invariant |qs| == |ps| + k && qs[..|ps|] == ps
      invariant k == 0 || |qs| <= m
      invariant forall i :: |ps| <= i < |qs| ==> qs[i] == NewAtom(RefillPool, w, h, draws(i - |ps|))
      invariant forall i :: |ps| <= i < |qs| ==> FreshAtom(qs[i])
      invariant forall c: nat :: c < k ==> coin(c) < SpawnChance
      decreases m - |qs|
    {
      var a := NewAtom(RefillPool, w, h, draws(k));
      RefillPoolKinds(draws(k).pick);
      qs := qs + [a];
      k := k + 1;
    }
  }
}

=== FILE: simulation.dfy ===
/** The component's state and its three entry points: mounting (size the
    canvas, seed the atoms), one animation frame (move, expire droplets,
    merge, top up, recount, all gated by the global pause), and a click
    (toggle the pause flag of the particle under the cursor). */
module Simulation {
  import opened Kinds
  import opened Particles
  import opened Droplets
  import opened Census
  import opened Merging
  import opened Population

  /** The component's mutable state: the particle and droplet lists, the
      canvas size and the statistics last reported. */
  datatype Sim = Sim(
    particles: seq<Particle>,
    droplets: seq<Droplet>,
    width: nat,
    height: nat,
    stats: Stats)

  /** The random draws one frame consumes, indexed by use: jitter by
      particle, constructor draws by molecule, spray by droplet, and coin
      and placement by top-up round. */
  datatype Entropy = Entropy(
    jitter: nat -> Jitter,
    born: nat -> Spawn,
    spray: nat -> Spray,
    coin: nat -> real,
    atom: nat -> AtomDraw)

  /** Every particle is one step further, in place. */
  function UpdateAll(ps: seq<Particle>, w: nat, h: nat, jitter: nat -> Jitter): (qs: seq<Particle>)
    ensures |qs| == |ps|
    ensures forall i {:trigger qs[i], jitter(i)} :: 0 <= i < |ps| ==> qs[i] == Update(ps[i], w as real, h as real, jitter(i))
    ensures SameKinds(ps, qs)
    ensures forall i :: 0 <= i < |ps| && ps[i].paused ==> qs[i] == ps[i]
    ensures forall i :: 0 <= i < |ps| && !ps[i].paused ==> qs[i].scale == GrowScale(ps[i].scale)
    ensures forall i :: 0 <= i < |ps| && !ps[i].paused ==> -MaxSpeed <= qs[i].vx <= MaxSpeed
  {
    if |ps| == 0 then []
    else
      var n := |ps| - 1;
      assert forall i :: 0 <= i < n ==> ps[..n][i] == ps[i];
      UpdateAll(ps[..n], w, h, jitter) + [Update(ps[n], w as real, h as real, jitter(n))]
  }

  /** Every particle has a scale in the unit interval. */
  predicate UnitScales(ps: seq<Particle>)
  {
    forall i :: 0 <= i < |ps| ==> 0.0 <= ps[i].scale <= 1.0
  }

  /** The state a running simulation keeps: only the four kinds, scales in
      the unit interval, and droplets no older than the frame that sprayed
      them. */
  predicate Healthy(s: Sim)
  {
    FourKinds(s.particles) && UnitScales(s.particles) && AllFresh(s.droplets)
  }

  /** What the first half of a running frame yields by the reference scan:
      the survivors of the moved list followed by its molecules, the
      droplets still alive followed by the spray, and the product kinds when
      a callback exists. */
  function Merged(s: Sim, notify: bool, e: Entropy): (out: MergeOutcome)
  {
    var moved := UpdateAll(s.particles, s.width, s.height, e.jitter);
    var pairs := MergePairs(moved);
    MergePairsReact(moved);
    var products := Products(moved, pairs, e.born);
    MergeOutcome(
      Survivors(moved, Endpoints(pairs)) + products,
      Advance(s.droplets) + Splash(moved, pairs, e.spray),
      if notify then KindsOf(products) else [])
  }

  /** The first half of a running frame: every particle moves, expired
      droplets are dropped and the merge pass runs. Atoms are conserved, the
      list does not grow, and a pass over fresh droplets sprays eight per
      reported product. */
  method MoveAndMerge(s: Sim, notify: bool, e: Entropy) returns (out: MergeOutcome)
    ensures |out.particles| <= |s.particles|
    ensures Hydrogen(out.particles) == Hydrogen(s.particles) && Oxygen(out.particles) == Oxygen(s.particles)
    ensures !notify ==> out.formed == []
    ensures FourKinds(s.particles) && UnitScales(s.particles) ==> FourKinds(out.particles) && UnitScales(out.particles)
    ensures AllFresh(s.droplets) ==> AllFresh(out.droplets)
    ensures notify && AllFresh(s.droplets) ==> |out.droplets| == DropletsPerMerge * |out.formed|
    ensures out == Merged(s, notify, e)
  {
    var moved := UpdateAll(s.particles, s.width, s.height, e.jitter);
    var pairs;
    out, pairs := MergePass(moved, Advance(s.droplets), notify, e.born, e.spray);
    SameKindsSameWeight(s.particles, moved, HydrogenAtoms);
    SameKindsSameWeight(s.particles, moved, OxygenAtoms);
    if AllFresh(s.droplets) {
      AdvanceFresh(s.droplets);
      SplashFresh(moved, pairs, e.spray);
    }
    if FourKinds(s.particles) && UnitScales(s.particles) {
      MergedKinds(s.particles, moved, pairs, e.born);
    }
  }

  /** The second half of a running frame: the merged list is topped up
      towards the budget `m` with new atoms placed by the frame's draws, the
      statistics are recounted, and the droplets of the merge pass are kept.
      The top-up loses no atom and keeps known kinds and unit scales. */
  method TopUpAndCount(s: Sim, out: MergeOutcome, m: int, e: Entropy) returns (s': Sim)
    requires Drawable(e.atom)
    ensures ToppedUp(out.particles, s'.particles, s.width, s.height, e.atom)
    ensures CoinsDecide(out.particles, s'.particles, m, e.coin)
    ensures |s'.particles| <= |out.particles| || |s'.particles| <= m
    ensures s'.droplets == out.droplets
    ensures s'.width == s.width && s'.height == s.height
    ensures Describes(s'.stats, s'.particles)
    ensures Hydrogen(out.particles) <= Hydrogen(s'.particles) && Oxygen(out.particles) <= Oxygen(s'.particles)
    ensures FourKinds(out.particles) && UnitScales(out.particles) ==> FourKinds(s'.particles) && UnitScales(s'.particles)
    ensures FourKinds(out.particles) ==> s'.stats.h + s'.stats.o + s'.stats.h2 + s'.stats.h2o == s'.stats.total
  {
    var ps := Replenish(out.particles, m, s.width, s.height, e.coin, e.atom);
    var stats := Tally(ps);
    s' := Sim(ps, out.droplets, s.width, s.height, stats);
    TopUpAtoms(out.particles, ps);
    if UnitScales(out.particles) {
      TopUpScales(out.particles, ps);
    }
    if FourKinds(out.particles) {
      TopUpFourKinds(out.particles, ps);
      NoOtherIffFourKinds(ps);
    }
  }

  /** One running frame: every particle moves, expired droplets are
      dropped, the merge pass runs, the population is topped up towards the
      budget `m`, and the statistics are recounted. `formed` lists the kinds
      reported to the callback, which exists when `notify` holds. */
  method Step(s: Sim, m: int, notify: bool, e: Entropy) returns (s': Sim, formed: seq<Kind>)
    requires Drawable(e.atom)
    ensures s'.width == s.width && s'.height == s.height
    ensures Describes(s'.stats, s'.particles)
    ensures |s'.particles| <= |s.particles| || |s'.particles| <= m
    ensures Hydrogen(s.particles) <= Hydrogen(s'.particles)
    ensures Oxygen(s.particles) <= Oxygen(s'.particles)
    ensures !notify ==> formed == []
    ensures Healthy(s) ==> Healthy(s')
    ensures Healthy(s) ==> s'.stats.h + s'.stats.o + s'.stats.h2 + s'.stats.h2o == s'.stats.total
    ensures notify && AllFresh(s.droplets) ==> |s'.droplets| == DropletsPerMerge * |formed|
    ensures CoinsDecide(Merged(s, notify, e).particles, s'.particles, m, e.coin)
    ensures ToppedUp(Merged(s, notify, e).particles, s'.particles, s.width, s.height, e.atom)
    ensures s'.droplets == Merged(s, notify, e).droplets && formed == Merged(s, notify, e).formed
  {
    var out := MoveAndMerge(s, notify, e);
    s' := TopUpAndCount(s, out, m, e);
    formed := out.formed;
  }

  /** One animation frame. Without a canvas the frame does nothing and is not
      rescheduled. With the global pause set the frame only draws: no
      particle, droplet or list changes, and no statistics. Otherwise it is
      a running frame. */
  method Animate(s: Sim, m: int, notify: bool, paused: bool, canvas: bool, e: Entropy)
    returns (s': Sim, formed: seq<Kind>, again: bool)
    requires Drawable(e.atom)
    ensures again <==> canvas
    ensures !canvas || paused ==> s' == s && formed == []
    ensures s'.width == s.width && s'.height == s.height
    ensures canvas && !paused ==> Describes(s'.stats, s'.particles)
    ensures canvas && !paused ==> |s'.particles| <= |s.particles| || |s'.particles| <= m
    ensures canvas && !paused ==> Hydrogen(s.particles) <= Hydrogen(s'.particles)
    ensures canvas && !paused ==> Oxygen(s.particles) <= Oxygen(s'.particles)
    ensures canvas && !paused && !notify ==> formed == []
    ensures canvas && !paused && notify && AllFresh(s.droplets) ==> |s'.droplets| == DropletsPerMerge * |formed|
    ensures Healthy(s) ==> Healthy(s')
    ensures canvas && !paused ==> CoinsDecide(Merged(s, notify, e).particles, s'.particles, m, e.coin)
    ensures canvas && !paused ==> ToppedUp(Merged(s, notify, e).particles, s'.particles, s.width, s.height, e.atom)
    ensures canvas && !paused ==> s'.droplets == Merged(s, notify, e).droplets && formed == Merged(s, notify, e).formed
  {
    if !canvas {
      return s, [], false;
    }
    again := true;
    if paused {
      return s, [], true;
    }
    s', formed := Step(s, m, notify, e);
  }

  /** The top-up only appends, so it loses no atom. */
  lemma TopUpAtoms(merged: seq<Particle>, ps: seq<Particle>)
    requires |merged| <= |ps| && ps[..|merged|] == merged
    ensures Hydrogen(merged) <= Hydrogen(ps) && Oxygen(merged) <= Oxygen(ps)
  {
    assert ps == merged + ps[|merged|..];
    WeightConcat(merged, ps[|merged|..], HydrogenAtoms);
    WeightConcat(merged, ps[|merged|..], OxygenAtoms);
  }

  /** Moving and merging a list of known kinds and unit scales keeps both:
      the survivors were moved particles, and the molecules are H2 or H2O
      at scale zero. */
  lemma MergedKinds(before: seq<Particle>, moved: seq<Particle>, pairs: seq<Pair>, born: nat -> Spawn)
    requires FourKinds(before) && UnitScales(before)
    requires SameKinds(before, moved)
    requires forall i :: 0 <= i < |before| && !before[i].paused ==> moved[i].scale == GrowScale(before[i].scale)
    requires forall i :: 0 <= i < |before| && before[i].paused ==> moved[i] == before[i]
    requires PairsReact(moved, pairs)
    ensures var merged := Survivors(moved, Endpoints(pairs)) + Products(moved, pairs, born);
      FourKinds(merged) && UnitScales(merged)
  {
    var survivors := Survivors(moved, Endpoints(pairs));
    var products := Products(moved, pairs, born);
    var merged := survivors + products;
    assert FourKinds(moved) && UnitScales(moved) by {
      forall i | 0 <= i < |moved|
        ensures moved[i].kind != Other && 0.0 <= moved[i].scale <= 1.0
      {
        assert before[i].kind == moved[i].kind;
      }
    }
    forall i | 0 <= i < |merged|
      ensures merged[i].kind != Other && 0.0 <= merged[i].scale <= 1.0
    {
      if i < |survivors| {
        assert merged[i] == survivors[i];
        assert survivors[i] in moved;
      } else {
        assert merged[i] == products[i - |survivors|];
      }
    }
  }

  /** Topping up with fresh H and O atoms keeps known kinds. */
  lemma TopUpFourKinds(merged: seq<Particle>, ps: seq<Particle>)
    requires FourKinds(merged)
    requires |merged| <= |ps| && ps[..|merged|] == merged
    requires forall i :: |merged| <= i < |ps| ==> FreshAtom(ps[i])
    ensures FourKinds(ps)
  {
    forall i | 0 <= i < |merged|
      ensures ps[i] == merged[i]
    {
      assert ps[..|merged|][i] == ps[i];
    }
  }

  /** Topping up with fresh atoms, which start at scale zero, keeps unit
      scales. */
  lemma TopUpScales(merged: seq<Particle>, ps: seq<Particle>)
    requires UnitScales(merged)
    requires |merged| <= |ps| && ps[..|merged|] == merged
    requires forall i :: |merged| <= i < |ps| ==> FreshAtom(ps[i])
    ensures UnitScales(ps)
  {
    forall i | 0 <= i < |merged|
      ensures ps[i] == merged[i]
    {
      assert ps[..|merged|][i] == ps[i];
    }
  }

  /** The first particle, from index `from` on, whose disc contains the
      point, or `|ps|` if there is none: a search in list order. */
  function FirstHit(ps: seq<Particle>, x: real, y: real, from: nat): (k: nat)
    requires from <= |ps|
    ensures from <= k <= |ps|
    ensures k < |ps| ==> Hits(ps[k], x, y)
    ensures forall i :: from <= i < k ==> !Hits(ps[i], x, y)
    decreases |ps| - from
  {
    if from == |ps| then from
    else if Hits(ps[from], x, y) then from
    else FirstHit(ps, x, y, from + 1)
  }

  /** The tooltip a click opens: the kind of the particle and its new pause
      flag. */
  datatype Tooltip = NoTip | Tip(kind: Kind, paused: bool)

  datatype Clicked = Clicked(particles: seq<Particle>, tip: Tooltip)

  /** A click at canvas point `(x, y)`: the first particle in list order whose
      disc strictly contains the point has its pause flag flipped and its
      tooltip opened; a click that hits nothing changes nothing. */
  function Click(ps: seq<Particle>, x: real, y: real): (c: Clicked)
    ensures |c.particles| == |ps|
    ensures c.tip.NoTip? <==> forall i :: 0 <= i < |ps| ==> !Hits(ps[i], x, y)
    ensures c.tip.NoTip? ==> c.particles == ps
    ensures forall k :: 0 <= k < |ps| && Hits(ps[k], x, y) && (forall i :: 0 <= i < k ==> !Hits(ps[i], x, y)) ==>
      && c.particles[k] == ps[k].(paused := !ps[k].paused)
      && (forall i :: 0 <= i < |ps| && i != k ==> c.particles[i] == ps[i])
      && c.tip == Tip(ps[k].kind, !ps[k].paused)
  {
    var k := FirstHit(ps, x, y, 0);
    if k == |ps| then Clicked(ps, NoTip)
    else
      var p := ps[k].(paused := !ps[k].paused);
      Clicked(ps[k := p], Tip(p.kind, p.paused))
  }

  /** The hit-test looks at positions and kinds only. */
  lemma {:induction false} FirstHitPlaced(ps: seq<Particle>, qs: seq<Particle>, x: real, y: real, from: nat)
    requires |ps| == |qs| && from <= |ps|
    requires forall i :: 0 <= i < |ps| ==> qs[i].x == ps[i].x && qs[i].y == ps[i].y && qs[i].kind == ps[i].kind
    ensures FirstHit(qs, x, y, from) == FirstHit(ps, x, y, from)
    decreases |ps| - from
  {
    if from < |ps| {
      assert Hits(qs[from], x, y) == Hits(ps[from], x, y);
      FirstHitPlaced(ps, qs, x, y, from + 1);
    }
  }

  /** Flipping a pause flag moves nothing, so a second click at the same
      point flips the same particle back. */
  lemma ClickTwice(ps: seq<Particle>, x: real, y: real)
    ensures Click(Click(ps, x, y).particles, x, y).particles == ps
  {
    var k := FirstHit(ps, x, y, 0);
    if k < |ps| {
      var qs := ps[k := ps[k].(paused := !ps[k].paused)];
      assert Click(ps, x, y).particles == qs;
      FirstHitPlaced(ps, qs, x, y, 0);
      assert qs[k := qs[k].(paused := !qs[k].paused)] == ps;
    }
  }

  /** The mount effect, run at mount and again whenever a callback it
      depends on is re-created: the canvas takes the size of its container
      (`w` by `h`; without a canvas the size is kept), the particle list is
      re-seeded over that size, and droplets and statistics carry over. */
  method Remount(s: Sim, m: int, canvas: bool, w: nat, h: nat, draws: nat -> AtomDraw) returns (s': Sim)
    requires Drawable(draws)
    ensures s'.width == (if canvas then w else s.width) && s'.height == (if canvas then h else s.height)
    ensures s'.width == 0 || s'.height == 0 ==> s'.particles == s.particles
    ensures s'.width > 0 && s'.height > 0 ==> |s'.particles| == SeedCount(m) && SeedLike(s'.particles)
    ensures s'.width > 0 && s'.height > 0 ==> forall i :: 0 <= i < |s'.particles| ==>
      s'.particles[i] == NewAtom(SeedPool, s'.width, s'.height, draws(i))
    ensures s'.droplets == s.droplets && s'.stats == s.stats
  {
    var width, height := s.width, s.height;
    if canvas {
      width, height := w, h;
    }
    var ps := Seed(s.particles, m, width, height, draws);
    s' := s.(particles := ps, width := width, height := height);
  }

  /** Mounting: the mount effect on the empty state. The canvas takes the
      size of its container, the atoms are seeded, and the statistics keep
      their zero start until the first running frame. */
  method Mount(m: int, canvas: bool, w: nat, h: nat, draws: nat -> AtomDraw) returns (s: Sim)
    requires Drawable(draws)
    ensures canvas ==> s.width == w && s.height == h
    ensures !canvas ==> s.width == 0 && s.height == 0 && s.particles == []
    ensures canvas && w > 0 && h > 0 ==> |s.particles| == SeedCount(m)
    ensures canvas && (w == 0 || h == 0) ==> s.particles == []
    ensures s.droplets == [] && s.stats == NoStats
    ensures Healthy(s)
  {
    s := Remount(Sim([], [], 0, 0, NoStats), m, canvas, w, h, draws);
  }

  /** The host flipping the global pause flag, as the component is written:
      the frame callback depends on the flag, the mount effect depends on
      the frame callback, so the flip also re-runs the mount effect. */
  method TogglePause(s: Sim, paused: bool, m: int, canvas: bool, w: nat, h: nat, draws: nat -> AtomDraw)
    returns (s': Sim, paused': bool)
    requires Drawable(draws)
    ensures paused' == !paused
    ensures canvas && w > 0 && h > 0 ==> |s'.particles| == SeedCount(m) && SeedLike(s'.particles)
    ensures s'.droplets == s.droplets && s'.stats == s.stats
  {
    paused' := !paused;
    s' := Remount(s, m, canvas, w, h, draws);
  }

  /** Pausing and resuming, as written, loses the scene: on a sized canvas
      the particles come back only if they already were a fresh seeding of
      the same size, so any molecule, grown atom or atom paused by a click
      is gone. */
  method PauseResume(s: Sim, paused: bool, m: int, canvas: bool, w: nat, h: nat, first: nat -> AtomDraw, second: nat -> AtomDraw)
    returns (s': Sim, paused': bool)
    requires Drawable(first) && Drawable(second)
    ensures paused' == paused
    ensures canvas && w > 0 && h > 0 && s'.particles == s.particles ==>
      |s.particles| == SeedCount(m) && SeedLike(s.particles)
  {
    var mid, flipped := TogglePause(s, paused, m, canvas, w, h, first);
    s', paused' := TogglePause(mid, flipped, m, canvas, w, h, second);
  }

  /** A concrete scene the pause button destroys: one water-forming H2 on
      an 800 by 600 canvas is gone after a pause and a resume. */
  method PauseResumeLosesMolecule() returns (before: seq<Particle>, after: seq<Particle>)
    ensures |before| == 1 && before[0].kind == H2
    ensures after != before
  {
    var molecule := NewParticle(H2, 100.0, 100.0, Spawn(0.5, 0.5, 0.0));
    var s := Sim([molecule], [], 800, 600, NoStats);
    var draws := (i: nat) => AtomDraw(0.0, 0.5, 0.5, Spawn(0.5, 0.5, 0.0));
    var s', paused := PauseResume(s, false, 60, true, 800, 600, draws, draws);
    before, after := s.particles, s'.particles;
  }

  /** Pausing and resuming as evidently intended: the flip changes only the
      flag, and every frame drawn while it is set leaves the simulation as
      it was, so resuming finds the scene it paused. */
  method PauseResumeIntended(s: Sim, m: int, notify: bool, canvas: bool, frames: nat, e: Entropy)
    returns (s': Sim, paused: bool)
    requires Drawable(e.atom)
    ensures !paused && s' == s
  {
    paused := true;
    s' := s;
    var k := 0;
    while k < frames
      invariant s' == s
    {
      var formed, again;
      s', formed, again := Animate(s', m, notify, paused, canvas, e);
      k := k + 1;
    }
    paused := false;
  }
}
